=== FILE: README.md ===
# PassManager pass scheduling, in Dafny

A model of the pass-scheduling engine of `torch/fx/passes/infra/pass_manager.py`.
It covers five parts:

- **Constraint checking.** `_validate_pass_schedule_constraint` and the constraint loop of `validate_constraints` scan every pair of positions i < j in order. They raise at the first refused pair of the first violated constraint.
- **Sorting.** `topological_sort_passes` builds a dependency graph from every ordered pair of passes and every constraint, then takes a reversed depth-first postorder. It also reports a circular dependency. Both of the source's detectors are modelled: the reverse-edge test during construction and the "in progress" test during the traversal.
- **`this_before_that_pass_constraint`.**
- **The `PassManager` configuration.** This is the constructor, `add_pass`, `add_constraint`, `validate_constraints`, `solve_constraints` and `add_checks`.
- **Execution.** `__call__` settles the schedule, checks the module once, then runs whole rounds of passes. It stops when a round changes nothing or after `steps` rounds. With `run_checks_after_each_pass` it runs the invariant check after each pass, and `check_res_equal` when an example input is given. `check_res_equal` compares outputs pairwise, then raises or warns.

Layout, one module per file:

| file | module | contents |
|---|---|---|
| `wrappers.dfy` | `Wrappers` | `Option`, `Result`, `Outcome` |
| `seqs.dfy` | `Seqs` | duplicate-freedom, reversal, repetition, positions |
| `schedule.dfy` | `Schedule` | constraints, the validator, `this_before_that_pass_constraint` |
| `graph.dfy` | `DependencyGraph` | the graph-construction loops |
| `dfs.dfy` | `Dfs` | `topological_sort_util` and the root loop |
| `toposort.dfy` | `TopologicalSort` | `topological_sort_passes` |
| `cycles.dfy` | `CycleDetection` | the flag is raised exactly when no ordering satisfies the constraints |
| `errors.dfy` | `Errors` | the exceptions and warnings, as values |
| `equivalence.dfy` | `Equivalence` | `check_res_equal` |
| `manager.dfy` | `Manager` | the `PassManager` state and its configuration methods |
| `execution.dfy` | `Execution` | `__call__`: one pass, one round, the rounds loop |

How the program maps onto the model:

- **Passes** are values of a type parameter `P` with equality. The source keys its dictionaries by pass identity.
- **Constraints** are pure functions `(P, P) -> bool`.
- **Modules** are a type parameter `M`.
- **Exceptions** become values of `Failure<P>`. An operation that changes the manager and may raise returns the new manager together with the outcome. This matters because `solve_constraints` replaces the pass list before it raises.
- **External collaborators** arrive as the `Hooks` record:
  - running a pass on a module;
  - running a module on the example input and collecting the tensors;
  - `torch.allclose`.
- **The installed check function** is a predicate on modules. It is false where the check would raise.
- **A call in flight** is recorded as a `Run`: the current module, the modified flag, every pass run so far in order, the warnings emitted, and the exception raised, if any. The number of rounds started is returned alongside. This is how "before any pass runs" and "whole rounds" can be stated.

The sorting results that matter most:

- For distinct passes, `topological_sort_passes` returns a permutation of its input.
- When the flag is clear, the result satisfies every constraint.
- The flag is raised exactly when no ordering of the passes satisfies every constraint (`CycleDetection.FlagIffUnschedulable`).

The execution results that matter most:

- `__call__` runs the schedule repeated once per round (`Execution.CallRuns`).
- It returns the module that running exactly those passes produces.
- Every round but the last changed the module, and the loop stops early only at a round that changed nothing (`Execution.CallStops`).

## Model

| member | source | states |
|---|---|---|
| Schedule.ScanRow | torch/fx/passes/infra/pass_manager.py:61-68 | the inner scan from column j finds nothing exactly when the row's pass is accepted before every later pass, and otherwise returns the first refused column |
| Schedule.ScanRows | torch/fx/passes/infra/pass_manager.py:60-68 | the scan from row i passes exactly when every pair of positions from i on is accepted, and otherwise returns a refused pair before which, in row-major order, every pair is accepted |
| Schedule.ValidatePassScheduleConstraint | torch/fx/passes/infra/pass_manager.py:57-68 | returns normally if and only if the constraint accepts every pair i < j, and otherwise raises at the first refused pair in scanning order |
| Schedule.ValidateFrom | torch/fx/passes/infra/pass_manager.py:229-230 | the constraint loop from constraint k passes exactly when each remaining constraint is satisfied, and otherwise reports the first violated one and its first refused pair |
| Schedule.ValidateAll | torch/fx/passes/infra/pass_manager.py:229-230 | passes if and only if the schedule satisfies every constraint, and otherwise names the first violated constraint, every earlier one being satisfied |
| Schedule.ThisBeforeThatRespected | torch/fx/passes/infra/pass_manager.py:156-161 | a schedule satisfies `this_before_that(x, y)` exactly when no `y` precedes an `x` |
| Schedule.ThisBeforeThatExample | torch/fx/passes/infra/pass_manager.py:139-146 | the docstring's example: `[that, this]` is rejected at positions (0, 1) and `[this, that]` is accepted |
| Schedule.ScanSlice | torch/fx/passes/infra/pass_manager.py:61-63 | the inner loop over the slice after the row's pass finds nothing exactly when that pass is accepted before every pass of the slice, and otherwise returns the first refused index within the slice |
| Schedule.ScanSliceOffset | torch/fx/passes/infra/pass_manager.py:61 | an index `j` in the slice after position `i` is position `i + 1 + j` of the pass list |
| Schedule.ScanRowsAsWritten | torch/fx/passes/infra/pass_manager.py:60-68 | the loops as written report the row and the slice index, and the slice index names a pass the row's pass is refused before |
| Schedule.AsWrittenReportsSliceIndex | torch/fx/passes/infra/pass_manager.py:60-68 | the loops as written raise exactly when the position-based scan does, on the same row, and the printed second index is the refused pass's position minus the row minus one |
| Schedule.ReportedPositionsExample | torch/fx/passes/infra/pass_manager.py:60-66 | for `[that, this]` the message prints indices 0 and 0, while `this` is at position 1 |
| Schedule.ReportedPositionsMisplaced | torch/fx/passes/infra/pass_manager.py:60-66 | for every constraint and list, the loops as written fail exactly when the position-based scan fails, on the same row, and the printed second index is always smaller than the refused pass's position while still naming it within the slice |
| DependencyGraph.InitGraph | torch/fx/passes/infra/pass_manager.py:90-92 | one empty dependent list per pass and no edges |
| DependencyGraph.AddDependencies | torch/fx/passes/infra/pass_manager.py:100-104 | only `graph[b]` changes; it gains `a` exactly when some constraint refuses `a` before `b`; the flag rises exactly when such a refusal meets `b` already listed in `graph[a]` |
| DependencyGraph.BuildRow | torch/fx/passes/infra/pass_manager.py:96-104 | row i adds the row's pass `a` to `graph[b]` for every pass `b` at another position such that some constraint refuses `a` before `b`; for distinct passes the flag rises exactly when such a `b` is already listed in `graph[a]` |
| DependencyGraph.RowStepFlag | torch/fx/passes/infra/pass_manager.py:95-104 | after row i the flag is set exactly when some pair within rows 0..i is refused in both orders |
| DependencyGraph.BuildRows | torch/fx/passes/infra/pass_manager.py:95-104 | the outer loop yields exactly the edges of all rows, with the flag raised exactly when some pair is refused in both orders |
| DependencyGraph.BuildGraph | torch/fx/passes/infra/pass_manager.py:86-104 | one key per pass; `x` is in `graph[y]` exactly when two distinct positions hold them and a constraint refuses `x` before `y`; for distinct passes the flag means a pair refused both ways |
| Dfs.Visit | torch/fx/passes/infra/pass_manager.py:109-124 | visiting an unvisited node keeps the traversal invariant, finishes the node and strictly shrinks the unvisited set |
| Dfs.VisitDeps | torch/fx/passes/infra/pass_manager.py:116-120 | the dependent loop keeps the invariant, and without a flag leaves every listed dependent finished |
| Dfs.VisitRoots | torch/fx/passes/infra/pass_manager.py:126-128 | the root loop keeps the invariant, leaves nothing in progress and finishes every root |
| Dfs.Traverse | torch/fx/passes/infra/pass_manager.py:106-128 | the postorder lists every node exactly once, never clears the flag, and without a flag never lists a node before one of its dependents |
| TopologicalSort.ReversedPostorderRespects | torch/fx/passes/infra/pass_manager.py:126-131 | reversing a postorder without back edges gives a schedule every constraint accepts |
| TopologicalSort.TopologicalSortPasses | torch/fx/passes/infra/pass_manager.py:70-131 | no constraints: input unchanged and unflagged; otherwise each pass exactly once; for distinct passes a permutation; unflagged means every constraint holds; a pair refused both ways is flagged |
| TopologicalSort.SortedPassesValidate | torch/fx/passes/infra/pass_manager.py:95-131 | an unflagged sorted list passes the constraint loop of `validate_constraints` |
| CycleDetection.CycleIsFlagged | torch/fx/passes/infra/pass_manager.py:94-128 | a dependency cycle of any length raises the circular-dependency flag |
| CycleDetection.SchedulableIsNotFlagged | torch/fx/passes/infra/pass_manager.py:94-128 | if some ordering of distinct passes satisfies every constraint, neither detector fires |
| CycleDetection.FlagIffUnschedulable | torch/fx/passes/infra/pass_manager.py:79-81 | for distinct passes the flag is raised if and only if no ordering satisfies every constraint |
| Equivalence.CompareFrom | torch/fx/passes/infra/pass_manager.py:338-360 | from pair k on: suppressed, never raises and warns at exactly the mismatching pairs in order; unsuppressed, succeeds only with no mismatch and otherwise raises at the first one |
| Equivalence.CheckResEqual | torch/fx/passes/infra/pass_manager.py:313-360 | unsuppressed, succeeds if and only if every paired output is close, and otherwise raises at the first mismatching index; suppressed, warns once per mismatching index in order; outputs past the shorter side are ignored |
| Manager.NewManager | torch/fx/passes/infra/pass_manager.py:190-206 | keeps the given lists and both switches, is not validated, runs one round when `steps` is missing or zero, and otherwise keeps the given `steps` |
| Manager.DefaultCheckAccepts | torch/fx/passes/infra/pass_manager.py:259-260 | the default check accepts every module |
| Manager.AddPass | torch/fx/passes/infra/pass_manager.py:208-213 | the pass is appended, the manager is no longer validated, and nothing else changes |
| Manager.AddConstraint | torch/fx/passes/infra/pass_manager.py:215-220 | the constraint is appended, the manager is no longer validated, and nothing else changes |
| Manager.ValidateConstraints | torch/fx/passes/infra/pass_manager.py:222-231 | does nothing once validated; otherwise succeeds and marks validated if and only if every constraint holds, and otherwise reports the first violation; a validated manager's list always satisfies its constraints |
| Manager.ValidateIdempotent | torch/fx/passes/infra/pass_manager.py:226-227 | validating twice is validating once |
| Manager.AddPassRevalidates | torch/fx/passes/infra/pass_manager.py:208-231 | after `add_pass`, validation checks the extended list again, whatever the earlier state |
| Manager.SolveConstraints | torch/fx/passes/infra/pass_manager.py:233-244 | only the pass list changes; for distinct passes the new list is a permutation, the call raises if and only if `steps == 1` and no ordering satisfies every constraint, and whenever some ordering does the new list satisfies every constraint, whatever `steps` is; under one round a list that does not raise satisfies every constraint |
| Manager.SolveConstraintsSorts | torch/fx/passes/infra/pass_manager.py:242-244 | the list left behind is the sorted one, whether or not the call then raises, and the call raises exactly when the sort flagged a cycle and `steps == 1` |
| Manager.AddChecks | torch/fx/passes/infra/pass_manager.py:246-257 | installs the check if and only if it takes exactly one parameter, and otherwise raises with the manager unchanged |
| Execution.ThreadAppend | torch/fx/passes/infra/pass_manager.py:290-292 | running two pass lists one after the other is running their concatenation: the final module and the or-ed flag compose |
| Execution.RunPass | torch/fx/passes/infra/pass_manager.py:285-304 | one pass: the pass is recorded, the module and flag advance, only an enabled check can raise; the invariant check raises exactly when it rejects the new module; with an input and a change, the correctness check passes exactly when no output pair mismatches; suppression leaves only the invariant check able to raise |
| Execution.RunPasses | torch/fx/passes/infra/pass_manager.py:285-304 | the inner loop runs a prefix of the list, all of it unless something raised; only an enabled check raises, the invariant check only on a rejected module, the correctness check only with an input and without suppression |
| Execution.RunPassesThread | torch/fx/passes/infra/pass_manager.py:285-292 | the module and flag after the inner loop are those of running the passes it ran with nothing checked |
| Execution.RunPassesChecked | torch/fx/passes/infra/pass_manager.py:299-300 | with checks on, the check accepted every intermediate module of the inner loop |
| Execution.RunRound | torch/fx/passes/infra/pass_manager.py:281-304 | a round runs the whole pass list unless something raises; its module is that of the passes it ran, its flag says whether any of them changed the module, and it raises only with checks on: the invariant check on a rejected final module, the correctness check only with an input and without suppression |
| Execution.Rounds | torch/fx/passes/infra/pass_manager.py:279-309 | no more rounds start than the budget allows, and at least one starts when the budget is positive |
| Execution.RoundsTrace | torch/fx/passes/infra/pass_manager.py:279-309 | the passes run by the rounds loop are the pass list repeated once per round started, or a prefix of that when a round raised |
| Execution.RoundsThread | torch/fx/passes/infra/pass_manager.py:279-309 | the loop's module and overall flag are those of running exactly the passes run |
| Execution.RoundsStop | torch/fx/passes/infra/pass_manager.py:306-309 | every round but the last changed the module, and a loop ending before the budget ran out ended on a round that changed nothing |
| Execution.RoundsRaise | torch/fx/passes/infra/pass_manager.py:282-304 | the rounds loop raises only what a single round may raise, judged on the exception and the final module |
| Execution.SolveUnlessValidated | torch/fx/passes/infra/pass_manager.py:273-274 | a validated manager is left as it is; otherwise the constraints are solved; only a circular dependency under a one-round budget raises |
| Execution.SolveUnlessValidatedSchedule | torch/fx/passes/infra/pass_manager.py:273-274 | an unvalidated manager gets the sorted list; the settled schedule is a permutation of distinct passes; it raises if and only if not validated, `steps == 1` and no ordering works; it satisfies every constraint under one round, when validated, or when not validated and some ordering of distinct passes works |
| Execution.CheckThenRun | torch/fx/passes/infra/pass_manager.py:276-309 | a module the check rejects raises before any pass runs; otherwise at most `steps` rounds run, and the loop raises only with checks on (the invariant check on a rejected final module, the correctness check only with an input and without suppression); an accepted module with checks off never raises |
| Execution.CheckThenRunRuns | torch/fx/passes/infra/pass_manager.py:276-311 | the passes run are the schedule repeated per round, or a prefix of that, and the result module and flag are those of running exactly those passes |
| Execution.Call | torch/fx/passes/infra/pass_manager.py:262-311 | only the pass list of the manager can change (only its order, for distinct passes), and not when validated; the rounds stay within the budget; a circular dependency raises before any pass runs; a rejected input module runs no pass |
| Execution.CallRaises | torch/fx/passes/infra/pass_manager.py:273-304 | besides a circular dependency and a rejected input module, `__call__` raises only with checks on; with checks off and an accepted module it raises nothing but the circular dependency; with suppression no correctness failure escapes; an invariant failure means the input or the final module was rejected |
| Execution.CallSchedule | torch/fx/passes/infra/pass_manager.py:273-274 | an unvalidated manager runs the sorted list; the schedule run is a permutation of distinct passes; the circular-dependency error is raised if and only if the manager was not validated, `steps == 1` and no ordering works; the schedule satisfies every constraint under one round, when validated, or when not validated and some ordering of distinct passes works |
| Execution.CallRuns | torch/fx/passes/infra/pass_manager.py:262-311 | `__call__` runs the schedule once per round started, or a prefix of that when it raised, and returns the module and flag of running exactly those passes |
| Execution.CallStops | torch/fx/passes/infra/pass_manager.py:306-309 | `__call__` stops exactly at a fixed point: every round but the last changed the module, and an early stop follows a round that changed nothing |
| Execution.CallSettlesAtOnce | torch/fx/passes/infra/pass_manager.py:306-309 | when no pass ever reports a change, a call that does not raise runs exactly one round and reports no change |
| Execution.CallUsesBudget | torch/fx/passes/infra/pass_manager.py:282 | a schedule that changes the module in every round runs `steps` rounds unless something raises |
| Execution.CallWithoutChecks | torch/fx/passes/infra/pass_manager.py:276-309 | with checks off and an accepted input module, and no circular dependency raised: passes that never report a change settle in exactly one round with no change reported, and a schedule that changes the module every round runs all `steps` rounds |
| Execution.AddPassThenCall | torch/fx/passes/infra/pass_manager.py:208-213 | after `add_pass` the next call sorts again: a permutation of the extended list, satisfying every constraint under one round when no cycle is raised, and whatever `steps` is when some ordering of the distinct passes works |
| Execution.ValidatedCallKeepsOrder | torch/fx/passes/infra/pass_manager.py:273-274 | after a successful `validate_constraints`, `__call__` runs the passes in their given order |

## Left out

- Exception messages are not modelled. The source's exceptions carry only a message string. The model's `Failure` values instead carry structured data, some of which no message prints. `ScheduleViolated` records the index of the violated constraint in the list. `CheckArity` records the number of parameters of the rejected check function. `ScheduleViolated` also records the position of the refused pass, not the slice index the message prints; see "## Findings".
- Running a module on the example input (lines 288 and 303) is modelled as a pure function of the module and the input. In the source, `module(*input)` may mutate the module or its buffers, and such effects are not modelled.
- Python's recursion limit is not modelled. `topological_sort_util` (lines 109-118) recurses once per dependency, so a long enough chain of dependencies raises `RecursionError` in the source. The model's search has no depth bound.
- Aliasing of the pass list is not modelled. `self.passes = passes` (line 199) keeps the caller's list object, so `add_pass` (line 212) also appends to the list the caller passed in. In the model, lists are values.
- `recompile` of a `GraphModule` after each pass is left out. It does not affect scheduling.
- `inplace_wrapper` and `pass_result_wrapper` are left out. They only adapt a pass into one that returns `PassResult(module, True)`.
- `_collect_tensors` and `map_aggregate` are left out. Outputs arrive already flattened into a sequence of tensors.
- `torch.allclose` and its tolerances are left out. This covers `equal_nan`, `rtol`, `atol` and the move to the CPU for tensors on different devices; closeness is the `close` predicate of `Hooks`.
- Exceptions raised by a pass itself, or by running the module on the example input, are not modelled. Only the manager's own exceptions and the installed check's rejection are.
- `add_checks` does not inspect the function. `inspect.signature` is replaced by the number of parameters, given as an integer.
- The installed check runs only for its exception. It is modelled as a predicate: false where it would raise.
- Manager.NewManager: does not model the class-level default lists. In the source, an empty or missing `passes` or `constraints` leaves the manager on the class attribute `passes = []` or `constraints = []` (lines 185-186, 198-201). `add_pass` and `add_constraint` on such a manager append to that list, which every such manager shares. The model gives each manager its own list.
- A `steps` value that is not an integer is not modelled.
- The `time` counters of `topological_sort_util` are not modelled. They are only ever read as "finish time is 0", which is the `InProgress` mark.
- Duplicate passes are not fully covered. The sort is defined for any list; its permutation and flag-exactness results assume distinct passes, as the source's pass-keyed dictionaries do.
- `torch/nn/utils/_expanded_weights/linear_expanded_weights.py` and `torch/csrc/utils/schema_info.h` are not part of this model; they are unrelated to pass scheduling.

## Findings

| source | as written | input that shows it | evidently intended | confidence | as-written member | corrected member |
|---|---|---|---|---|---|---|
| torch/fx/passes/infra/pass_manager.py:61-66 | the message prints `j` from `enumerate(passes[i + 1 :])`, an offset into the tail after position `i`, as "index" of `b` in the pass list | `passes = [that, this]` with `this_before_that_pass_constraint(this, that)`: the message reports positions 0 and 0, while `this` is at position 1 | report the position of `b` in the pass list, `i + 1 + j` | not executed | Schedule.ReportedPositionsMisplaced | Schedule.ValidatePassScheduleConstraint |

=== FILE: cycles.dfy ===
/** What the circular-dependency flag of `topological_sort_passes` means:
    it is raised exactly when no ordering of the passes satisfies every
    constraint. Both detectors of the source take part: the reverse-edge check
    while the graph is built (pairs refused both ways) and the in-progress
    check of the traversal (longer cycles). */
module CycleDetection {
  import opened Seqs
  import opened Schedule
  import opened DependencyGraph
  import opened Dfs
  import opened TopologicalSort

  /** `xs` walks a dependency cycle through the passes: each step goes from a
      pass to a different pass that some constraint refuses to see after it,
      and the walk ends where it started. */
  ghost predicate IsDependencyCycle<P>(passes: seq<P>, cs: seq<Constraint<P>>, xs: seq<P>) {
    && |xs| >= 2
    && xs[0] == xs[|xs| - 1]
    && (forall t | 0 <= t < |xs| :: xs[t] in passes)
    && (forall t | 0 <= t < |xs| - 1 :: xs[t] != xs[t + 1] && !Permits(cs, xs[t], xs[t + 1]))
  }

  /** In a schedule that satisfies every constraint, a pass refused before
      another never sits before it. */
  lemma RefusedPairOrder<P>(cs: seq<Constraint<P>>, s: seq<P>, i: nat, j: nat)
    requires RespectsAll(cs, s) && i < |s| && j < |s|
    requires !Permits(cs, s[i], s[j])
    ensures j <= i
  {
    var k :| 0 <= k < |cs| && !cs[k](s[i], s[j]);
    assert Respects(cs[k], s);
  }

  /** Along a walk of refused steps, positions in a satisfying schedule strictly fall. */
  lemma {:induction false} WalkDescends<P>(cs: seq<Constraint<P>>, s: seq<P>, xs: seq<P>, m: nat)
    requires RespectsAll(cs, s)
    requires 1 <= m < |xs|
    requires forall t | 0 <= t < |xs| :: xs[t] in s
    requires forall t | 0 <= t < |xs| - 1 :: xs[t] != xs[t + 1] && !Permits(cs, xs[t], xs[t + 1])
    ensures IndexOf(s, xs[m]) < IndexOf(s, xs[0])
  {
    var a, b := IndexOf(s, xs[m - 1]), IndexOf(s, xs[m]);
    RefusedPairOrder(cs, s, a, b);
    assert a != b;
    if m > 1 {
      WalkDescends(cs, s, xs, m - 1);
    }
  }

  /** A walk of refused steps through a schedule satisfying every
      constraint never returns to its start. */
  lemma WalkNeverCloses<P>(cs: seq<Constraint<P>>, s: seq<P>, xs: seq<P>)
    requires RespectsAll(cs, s)
    requires |xs| >= 2
    requires forall t | 0 <= t < |xs| :: xs[t] in s
    requires forall t | 0 <= t < |xs| - 1 :: xs[t] != xs[t + 1] && !Permits(cs, xs[t], xs[t + 1])
    ensures xs[0] != xs[|xs| - 1]
  {
    WalkDescends(cs, s, xs, |xs| - 1);
  }

  /** A dependency cycle of any length is flagged: if it were not, the sorted
      list would satisfy every constraint, and positions along the cycle would
      fall strictly all the way back to where they started. */
  lemma CycleIsFlagged<P(!new)>(passes: seq<P>, cs: seq<Constraint<P>>, xs: seq<P>)
    requires IsDependencyCycle(passes, cs, xs)
    ensures TopologicalSortPasses(passes, cs).1
  {
    var r := TopologicalSortPasses(passes, cs);
    if !r.1 {
      assert |cs| > 0 by {
        if |cs| == 0 {
          assert Permits(cs, xs[0], xs[1]);
        }
      }
      var s := r.0;
      assert RespectsAll(cs, s);
      assert forall t | 0 <= t < |xs| :: xs[t] in s by {
        forall t | 0 <= t < |xs| ensures xs[t] in s {
          assert xs[t] in passes;
        }
      }
      WalkNeverCloses(cs, s, xs);
    }
  }

  /** Positions in a satisfying schedule rank the dependency graph: every
      pass sits before each pass listed as having to come after it. */
  ghost predicate RanksGraph<P>(g: Graph<P>, rank: map<P, int>) {
    && (forall p | p in g :: p in rank)
    && (forall p, q | p in g && q in g[p] :: q in rank && p in rank && rank[p] < rank[q])
  }

  /** Every in-progress node ranks at most `bound`. */
  ghost predicate InProgressBelow<P>(v: map<P, Mark>, rank: map<P, int>, bound: int) {
    forall q | q in v && v[q] == InProgress :: q in rank && rank[q] <= bound
  }

  /** With a ranked graph the in-progress nodes (the recursion stack) all rank
      below the node being entered, so no dependent is ever found in progress. */
  lemma VisitKeepsFlag<P>(g: Graph<P>, rank: map<P, int>, p: P, st: DfsState<P>)
    requires Inv(g, st) && p in g && st.visited[p] == Unvisited
    requires RanksGraph(g, rank)
    requires InProgressBelow(st.visited, rank, rank[p] - 1)
    ensures Visit(g, p, st).circular == st.circular
    decreases |UnvisitedSet(st.visited)|, 0
  {
    var st1 := st.(visited := st.visited[p := InProgress]);
    EnterKeepsInv(g, p, st);
    VisitDepsKeepsFlag(g, rank, g[p], st1, rank[p]);
  }

  lemma VisitDepsKeepsFlag<P>(g: Graph<P>, rank: map<P, int>, deps: seq<P>, st: DfsState<P>, bound: int)
    requires Inv(g, st) && forall q | q in deps :: q in g
    requires RanksGraph(g, rank)
    requires InProgressBelow(st.visited, rank, bound)
    requires forall q | q in deps :: q in rank && rank[q] > bound
    ensures VisitDeps(g, deps, st).circular == st.circular
    decreases |UnvisitedSet(st.visited)|, |deps| + 1
  {
    if |deps| > 0 {
      var d := deps[0];
      assert st.visited[d] != InProgress;
      if st.visited[d] == Unvisited {
        VisitKeepsFlag(g, rank, d, st);
        var st1 := Visit(g, d, st);
        UnvisitedShrinks(st, st1);
        VisitDepsKeepsFlag(g, rank, deps[1..], st1, bound);
      } else {
        VisitDepsKeepsFlag(g, rank, deps[1..], st, bound);
      }
    }
  }

  lemma VisitRootsKeepsFlag<P>(g: Graph<P>, rank: map<P, int>, roots: seq<P>, st: DfsState<P>)
    requires Inv(g, st) && NoneInProgress(st.visited)
    requires forall q | q in roots :: q in g
    requires RanksGraph(g, rank)
    ensures VisitRoots(g, roots, st).circular == st.circular
    decreases |roots|
  {
    if |roots| > 0 {
      if st.visited[roots[0]] == Unvisited {
        VisitKeepsFlag(g, rank, roots[0], st);
        VisitRootsKeepsFlag(g, rank, roots[1..], Visit(g, roots[0], st));
      } else {
        VisitRootsKeepsFlag(g, rank, roots[1..], st);
      }
    }
  }

  /** A satisfying schedule cannot hold two different passes each refused before the other. */
  lemma RefusedBothWaysIsSame<P>(cs: seq<Constraint<P>>, s: seq<P>, x: P, y: P)
    requires RespectsAll(cs, s) && x in s && y in s
    requires !Permits(cs, x, y) && !Permits(cs, y, x)
    ensures x == y
  {
    var a, b := IndexOf(s, x), IndexOf(s, y);
    RefusedPairOrder(cs, s, a, b);
    RefusedPairOrder(cs, s, b, a);
  }

  /** Distinct passes that some satisfying schedule orders are never refused both ways. */
  lemma SchedulableHasNoMutualRefusal<P>(passes: seq<P>, cs: seq<Constraint<P>>, s: seq<P>)
    requires NoDup(passes) && multiset(s) == multiset(passes)
    requires RespectsAll(cs, s)
    ensures !HasMutualRefusal(passes, cs)
  {
    forall i, j | 0 <= i < |passes| && 0 <= j < |passes| && i != j
      ensures Permits(cs, passes[i], passes[j]) || Permits(cs, passes[j], passes[i])
    {
      if !Permits(cs, passes[i], passes[j]) && !Permits(cs, passes[j], passes[i]) {
        assert multiset(passes)[passes[i]] > 0 && multiset(passes)[passes[j]] > 0;
        RefusedBothWaysIsSame(cs, s, passes[i], passes[j]);
      }
    }
  }

  /** Positions in a satisfying schedule rank the graph built from the same passes. */
  lemma ScheduleRanksGraph<P(!new)>(passes: seq<P>, cs: seq<Constraint<P>>, s: seq<P>, g: Graph<P>)
    requires NoDup(passes) && multiset(s) == multiset(passes)
    requires RespectsAll(cs, s)
    requires forall p :: p in g <==> p in passes
    requires forall x, y | y in g :: x in g[y] <==> EdgeInRows(passes, cs, x, y, |passes|)
    ensures forall p | p in g :: p in s
    ensures RanksGraph(g, map p | p in g :: IndexOf(s, p))
  {
    forall p | p in g ensures p in s {
      assert multiset(passes)[p] > 0;
    }
    var rank := map p | p in g :: IndexOf(s, p);
    forall p, q | p in g && q in g[p]
      ensures q in rank && p in rank && rank[p] < rank[q]
    {
      EdgeDistinct(passes, cs, q, p);
      RefusedPairOrder(cs, s, IndexOf(s, q), IndexOf(s, p));
    }
  }

  /** No false alarms: if some ordering of a list of distinct passes satisfies
      every constraint, neither detector fires. */
  lemma SchedulableIsNotFlagged<P(!new)>(passes: seq<P>, cs: seq<Constraint<P>>, s: seq<P>)
    requires NoDup(passes) && multiset(s) == multiset(passes)
    requires RespectsAll(cs, s)
    ensures !TopologicalSortPasses(passes, cs).1
  {
    if |cs| > 0 {
      var built := BuildGraph(passes, cs);
      var g := built.0;
      SchedulableHasNoMutualRefusal(passes, cs, s);
      ScheduleRanksGraph(passes, cs, s, g);
      assert Closed(g) by {
        forall p, q | p in g && q in g[p] ensures q in g {
          assert EdgeInRows(passes, cs, q, p, |passes|);
        }
      }
      ReverseElems(passes);
      var rank := map p | p in g :: IndexOf(s, p);
      VisitRootsKeepsFlag(g, rank, Reverse(passes), StartState(g, false));
    }
  }

  /** No ordering of `passes` satisfies every constraint. */
  ghost predicate Unschedulable<P(!new)>(passes: seq<P>, cs: seq<Constraint<P>>) {
    forall s | multiset(s) == multiset(passes) :: !RespectsAll(cs, s)
  }

  /** The flag is exact: for a list of distinct passes, `topological_sort_passes`
      reports a circular dependency if and only if no ordering of those passes
      satisfies every constraint. */
  lemma FlagIffUnschedulable<P(!new)>(passes: seq<P>, cs: seq<Constraint<P>>)
    requires NoDup(passes)
    ensures TopologicalSortPasses(passes, cs).1 <==> Unschedulable(passes, cs)
  {
    var r := TopologicalSortPasses(passes, cs);
    forall s | multiset(s) == multiset(passes) && RespectsAll(cs, s)
      ensures !r.1
    {
      SchedulableIsNotFlagged(passes, cs, s);
    }
  }
}

=== FILE: dfs.dfy ===
/** The second half of `topological_sort_passes`: the recursive depth-first
    postorder `topological_sort_util` over the dependency graph, with the
    three-state `visited` map and the "in progress" cycle check. */
module Dfs {
  import opened Seqs
  import opened DependencyGraph

  /** The source stores `None`, `(start, 0)` and `(start, finish)`; the start
      and finish times are only ever read through "finish time is 0", so
      three marks carry the same information. */
  datatype Mark = Unvisited | InProgress | Finished

  /** `visited`, the postorder `res`, and the `circular_dependency` flag. */
  datatype DfsState<P> = DfsState(visited: map<P, Mark>, res: seq<P>, circular: bool)

  /** The nodes not yet visited: the measure that makes the recursion terminate. */
  function UnvisitedSet<P>(v: map<P, Mark>): set<P> {
    set p | p in v && v[p] == Unvisited
  }

  /** Every listed dependent is itself a node. */
  ghost predicate Closed<P>(g: Graph<P>) {
    forall p, q | p in g && q in g[p] :: q in g
  }

  /** Every dependent of a finished node is finished. */
  ghost predicate DepsFinished<P>(g: Graph<P>, v: map<P, Mark>) {
    forall p, q | p in g && p in v && v[p] == Finished && q in g[p] :: q in v && v[q] == Finished
  }

  /** No node of the postorder lists, as a dependent, itself or a node
      appended after it. */
  ghost predicate NoBackEdge<P>(g: Graph<P>, res: seq<P>) {
    forall i, j | 0 <= i <= j < |res| && res[i] in g :: res[j] !in g[res[i]]
  }

  ghost predicate NoneInProgress<P>(v: map<P, Mark>) {
    forall p | p in v :: v[p] != InProgress
  }

  /** The invariant of the traversal: `res` lists the finished nodes once
      each, and while no cycle has been flagged it is a valid postorder. */
  ghost predicate Inv<P>(g: Graph<P>, st: DfsState<P>) {
    && st.visited.Keys == g.Keys
    && Closed(g)
    && (forall k | 0 <= k < |st.res| :: st.res[k] in st.visited && st.visited[st.res[k]] == Finished)
    && (forall p | p in st.visited && st.visited[p] == Finished :: p in st.res)
    && NoDup(st.res)
    && (!st.circular ==> DepsFinished(g, st.visited) && NoBackEdge(g, st.res))
  }

  /** How a call may change the state: finished nodes stay finished, the set
      of in-progress nodes is restored, and the flag is never cleared. */
  ghost predicate Progressed<P>(st: DfsState<P>, st': DfsState<P>) {
    && st'.visited.Keys == st.visited.Keys
    && (forall p | p in st.visited && st.visited[p] == Finished :: st'.visited[p] == Finished)
    && (forall p | p in st.visited :: st'.visited[p] == InProgress <==> st.visited[p] == InProgress)
    && (st.circular ==> st'.circular)
  }

  lemma SubsetCard<T>(a: set<T>, b: set<T>)
    requires a <= b
    ensures |a| <= |b|
  {
    assert b == a + (b - a);
  }

  lemma UnvisitedShrinks<P>(st: DfsState<P>, st': DfsState<P>)
    requires Progressed(st, st')
    ensures |UnvisitedSet(st'.visited)| <= |UnvisitedSet(st.visited)|
  {
    SubsetCard(UnvisitedSet(st'.visited), UnvisitedSet(st.visited));
  }

  /** Marking an unvisited node in progress keeps the invariant and shrinks the measure. */
  lemma EnterKeepsInv<P>(g: Graph<P>, p: P, st: DfsState<P>)
    requires Inv(g, st) && p in g && st.visited[p] == Unvisited
    ensures Inv(g, st.(visited := st.visited[p := InProgress]))
    ensures |UnvisitedSet(st.(visited := st.visited[p := InProgress]).visited)| < |UnvisitedSet(st.visited)|
  {
    var v1 := st.visited[p := InProgress];
    var st1 := st.(visited := v1);
    assert UnvisitedSet(v1) == UnvisitedSet(st.visited) - {p};
    assert v1.Keys == g.Keys;
    forall k | 0 <= k < |st1.res| ensures st1.res[k] in v1 && v1[st1.res[k]] == Finished {
      assert st.visited[st.res[k]] == Finished;
    }
    forall q | q in v1 && v1[q] == Finished ensures q in st1.res {
      assert q != p;
    }
    if !st.circular {
      forall a, b | a in g && a in v1 && v1[a] == Finished && b in g[a] ensures b in v1 && v1[b] == Finished {
        assert st.visited[a] == Finished;
      }
    }
  }

  /** Appending and finishing `p` once its dependents are done keeps the invariant. */
  lemma LeaveKeepsInv<P>(g: Graph<P>, p: P, st2: DfsState<P>)
    requires Inv(g, st2) && p in g && st2.visited[p] == InProgress
    requires !st2.circular ==> forall q | q in g[p] :: st2.visited[q] == Finished
    ensures Inv(g, st2.(res := st2.res + [p], visited := st2.visited[p := Finished]))
  {
    var st3 := st2.(res := st2.res + [p], visited := st2.visited[p := Finished]);
    assert p !in st2.res;
    if !st3.circular {
      assert p !in g[p];
      forall i, j | 0 <= i <= j < |st3.res| && st3.res[i] in g
        ensures st3.res[j] !in g[st3.res[i]]
      {
        if j == |st2.res| && i < j {
          assert st2.visited[st2.res[i]] == Finished;
        }
      }
    }
  }

  /** Over a whole visit of `p`: the state progressed and the measure shrank. */
  lemma VisitProgress<P>(p: P, st: DfsState<P>, st2: DfsState<P>)
    requires p in st.visited && st.visited[p] == Unvisited
    requires Progressed(st.(visited := st.visited[p := InProgress]), st2)
    ensures Progressed(st, st2.(res := st2.res + [p], visited := st2.visited[p := Finished]))
    ensures |UnvisitedSet(st2.(res := st2.res + [p], visited := st2.visited[p := Finished]).visited)|
            < |UnvisitedSet(st.visited)|
  {
    var st1 := st.(visited := st.visited[p := InProgress]);
    var st3 := st2.(res := st2.res + [p], visited := st2.visited[p := Finished]);
    assert UnvisitedSet(st1.visited) == UnvisitedSet(st.visited) - {p};
    assert UnvisitedSet(st3.visited) <= UnvisitedSet(st1.visited);
    SubsetCard(UnvisitedSet(st3.visited), UnvisitedSet(st1.visited));
  }

  /** `topological_sort_util(graph, p)`: mark `p` in progress, visit its
      dependents in list order, then append `p` and mark it finished. */
  function Visit<P(==)>(g: Graph<P>, p: P, st: DfsState<P>): (st': DfsState<P>)
    requires Inv(g, st) && p in g && st.visited[p] == Unvisited
    ensures Inv(g, st') && Progressed(st, st')
    ensures st'.visited[p] == Finished
    ensures |UnvisitedSet(st'.visited)| < |UnvisitedSet(st.visited)|
    decreases |UnvisitedSet(st.visited)|, 0
  {
    var st1 := st.(visited := st.visited[p := InProgress]);
    EnterKeepsInv(g, p, st);
    var st2 := VisitDeps(g, g[p], st1);
    LeaveKeepsInv(g, p, st2);
    VisitProgress(p, st, st2);
    st2.(res := st2.res + [p], visited := st2.visited[p := Finished])
  }

  /** The loop of `topological_sort_util` over the dependencies of a pass,
      in list order: an unvisited dependent is visited, an in-progress one
      flags a circular dependency, a finished one is skipped. */
  function VisitDeps<P(==)>(g: Graph<P>, deps: seq<P>, st: DfsState<P>): (st': DfsState<P>)
    requires Inv(g, st) && forall q | q in deps :: q in g
    ensures Inv(g, st') && Progressed(st, st')
    ensures !st'.circular ==> forall q | q in deps :: st'.visited[q] == Finished
    decreases |UnvisitedSet(st.visited)|, |deps| + 1
  {
    if |deps| == 0 then st
    else
      var d := deps[0];
      var st1 :=
        if st.visited[d] == Unvisited then Visit(g, d, st)
        else if st.visited[d] == InProgress then st.(circular := true)
        else st;
      UnvisitedShrinks(st, st1);
      VisitDeps(g, deps[1..], st1)
  }

  /** The root loop of `topological_sort_passes`: the passes are taken from
      last to first (`roots` is already reversed), and each one not yet
      visited starts a new search. */
  function VisitRoots<P(==)>(g: Graph<P>, roots: seq<P>, st: DfsState<P>): (st': DfsState<P>)
    requires Inv(g, st) && NoneInProgress(st.visited)
    requires forall q | q in roots :: q in g
    ensures Inv(g, st') && Progressed(st, st') && NoneInProgress(st'.visited)
    ensures forall q | q in roots :: st'.visited[q] == Finished
    decreases |roots|
  {
    if |roots| == 0 then st
    else
      var st1 := if st.visited[roots[0]] == Unvisited then Visit(g, roots[0], st) else st;
      VisitRoots(g, roots[1..], st1)
  }

  /** Every node unvisited, nothing appended yet, and the flag as the graph
      construction left it. */
  function StartState<P>(g: Graph<P>, circular: bool): (st: DfsState<P>)
    requires Closed(g)
    ensures Inv(g, st) && NoneInProgress(st.visited) && st.circular == circular
  {
    DfsState(map p | p in g :: Unvisited, [], circular)
  }

  /** The whole traversal from an all-unvisited map: the postorder lists
      every node exactly once, the incoming flag is kept, and without a flag
      no node is followed in the postorder by one of its dependents. */
  function Traverse<P(==)>(g: Graph<P>, roots: seq<P>, circular: bool): (st: DfsState<P>)
    requires Closed(g)
    requires forall q | q in roots :: q in g
    requires forall p | p in g :: p in roots
    ensures NoDup(st.res)
    ensures forall k | 0 <= k < |st.res| :: st.res[k] in g
    ensures forall p | p in g :: p in st.res
    ensures circular ==> st.circular
    ensures !st.circular ==> NoBackEdge(g, st.res)
  {
    VisitRoots(g, roots, StartState(g, circular))
  }
}

=== FILE: equivalence.dfy ===
/** `PassManager.check_res_equal`: compare the tensors of the outputs before
    and after a pass, pairwise. Collecting the tensors out of nested outputs
    and deciding closeness (`torch.allclose` with `equal_nan`, `rtol`, `atol`,
    after moving both to the CPU when their devices differ) are external, so
    the outputs arrive as flat sequences and closeness as a predicate. */
module Equivalence {
  import opened Wrappers
  import opened Errors

  /** Output `k` is paired (both sequences reach it) and its two tensors are not close. */
  predicate Mismatch<T>(res0: seq<T>, res1: seq<T>, close: (T, T) -> bool, k: int) {
    0 <= k < |res0| && k < |res1| && !close(res0[k], res1[k])
  }

  /** The comparison loop from pair `k` on. `zip` stops at the shorter side. */
  function CompareFrom<P, T>(pass: P, res0: seq<T>, res1: seq<T>, close: (T, T) -> bool, suppress: bool, k: nat)
    : (r: Result<seq<Warning<P>>, Failure<P>>)
    requires k <= |res0| && k <= |res1|
    ensures suppress ==> r.Success?
    ensures r.Success? ==> forall w | w in r.value :: w.pass == pass && Mismatch(res0, res1, close, w.output) && k <= w.output
    ensures r.Success? ==> forall a, b | 0 <= a < b < |r.value| :: r.value[a].output < r.value[b].output
    ensures suppress ==> forall k' | k <= k' && Mismatch(res0, res1, close, k') :: Warning(pass, k') in r.value
    ensures !suppress && r.Success? ==> r.value == [] && forall k' | k <= k' :: !Mismatch(res0, res1, close, k')
    ensures r.Failure? ==> exists k' | k <= k' :: r.error == CorrectnessCheckFailed(pass, k') && Mismatch(res0, res1, close, k') &&
                                                forall k'' | k <= k'' < k' :: !Mismatch(res0, res1, close, k'')
    decreases |res0| - k
  {
    if k == |res0| || k == |res1| then Success([])
    else if close(res0[k], res1[k]) then CompareFrom(pass, res0, res1, close, suppress, k + 1)
    else if suppress then Success([Warning(pass, k)] + CompareFrom(pass, res0, res1, close, suppress, k + 1).value)
    else Failure(CorrectnessCheckFailed(pass, k))
  }

  /** `check_res_equal(pass_, res0, res1)`. Unsuppressed, it succeeds exactly
      when every paired output is close and otherwise raises at the first
      mismatching index. Suppressed, it never raises and warns once per
      mismatching index, in index order. Outputs beyond the shorter side are
      never compared. */
  function CheckResEqual<P, T>(pass: P, res0: seq<T>, res1: seq<T>, close: (T, T) -> bool, suppress: bool)
    : (r: Result<seq<Warning<P>>, Failure<P>>)
    ensures suppress ==> r.Success?
    ensures r.Success? ==> forall a, b | 0 <= a < b < |r.value| :: r.value[a].output < r.value[b].output
    ensures r.Success? ==> forall w | w in r.value :: w.pass == pass && Mismatch(res0, res1, close, w.output)
    ensures suppress ==> forall k | Mismatch(res0, res1, close, k) :: Warning(pass, k) in r.value
    ensures !suppress ==> (r.Success? <==> forall k :: !Mismatch(res0, res1, close, k))
    ensures !suppress && r.Success? ==> r.value == []
    ensures r.Failure? ==> exists k: nat :: r.error == CorrectnessCheckFailed(pass, k) && Mismatch(res0, res1, close, k) &&
                                      forall k' | 0 <= k' < k :: !Mismatch(res0, res1, close, k')
  {
    CompareFrom(pass, res0, res1, close, suppress, 0)
  }
}

=== FILE: errors.dfy ===
/** The exceptions the pass manager raises, and the warnings it emits. */
module Errors {
  import opened Schedule

  datatype Failure<P> =
      /** `RuntimeError` of `_validate_pass_schedule_constraint`. */
    | ScheduleViolated(violation: ScheduleViolation)
      /** `RuntimeError` of `solve_constraints` when a cycle meets `steps == 1`. */
    | CircularDependency
      /** `TypeError` of `add_checks` for a check not taking exactly one parameter. */
    | CheckArity(parameters: int)
      /** Whatever the installed check function raised. */
    | InvariantCheckFailed
      /** `RuntimeError` of `check_res_equal`: the pass and the output index. */
    | CorrectnessCheckFailed(pass: P, output: nat)
  {
    /** Raised while the passes run, by one of the two checks. */
    predicate FromCheck() {
      InvariantCheckFailed? || CorrectnessCheckFailed?
    }
  }

  /** `warnings.warn` of `check_res_equal` under `suppress_check_failures`. */
  datatype Warning<P> = Warning(pass: P, output: nat)
}

=== FILE: execution.dfy ===
/** `PassManager.__call__`: solve the schedule unless validated, check the
    module, then run the whole pass list round after round until a round
    leaves the module unchanged or the step budget is spent. Running a pass,
    running the module on the example input and comparing tensors are
    external, so they arrive as the `Hooks` record. */
module Execution {
  import opened Wrappers
  import opened Seqs
  import opened Schedule
  import opened TopologicalSort
  import opened Errors
  import opened Equivalence
  import opened CycleDetection
  import opened Manager

  /** `PassResult(graph_module, modified)`, what a pass returns. */
  datatype PassResult<M> = PassResult(graphModule: M, modified: bool)

  /** The external collaborators: `apply(fn, module)` is `fn(module)`;
      `evaluate(module, input)` is the tensors collected from
      `module(*input)`; `close` is the tensor comparison of `check_res_equal`. */
  datatype Hooks<!P, !M, !I, !T> = Hooks(
    apply: (P, M) -> PassResult<M>,
    evaluate: (M, I) -> seq<T>,
    close: (T, T) -> bool)

  /** The state of a call in flight: the current module, the running
      modified flag, the passes run so far (in order), the warnings emitted,
      and the exception raised, if any (nothing runs after it). */
  datatype Run<P, M> = Run(graphModule: M, modified: bool, ran: seq<P>, warnings: seq<Warning<P>>, raised: Option<Failure<P>>)

  /** Reference semantics of running `ps` in order from `x` with nothing
      checked: the final module, and whether any pass reported a change. */
  function Thread<P, M>(apply: (P, M) -> PassResult<M>, ps: seq<P>, x: M): (r: PassResult<M>)
  {
    if |ps| == 0 then PassResult(x, false)
    else
      var first := apply(ps[0], x);
      var rest := Thread(apply, ps[1..], first.graphModule);
      PassResult(rest.graphModule, first.modified || rest.modified)
  }

  /** Running `a` then `b` is running `a + b`. */
  lemma {:induction false} ThreadAppend<P, M>(apply: (P, M) -> PassResult<M>, a: seq<P>, b: seq<P>, x: M)
    ensures Thread(apply, a + b, x).graphModule == Thread(apply, b, Thread(apply, a, x).graphModule).graphModule
    ensures Thread(apply, a + b, x).modified ==
            (Thread(apply, a, x).modified || Thread(apply, b, Thread(apply, a, x).graphModule).modified)
  {
    if |a| > 0 {
      assert (a + b)[1..] == a[1..] + b;
      ThreadAppend(apply, a[1..], b, apply(a[0], x).graphModule);
    } else {
      assert a + b == b;
    }
  }

  /** One iteration of the loop over the pass list: remember the outputs on the
      example input when checking is on, run the pass, fold its flag into the
      round's flag, then (only when checking is on) run the invariant check
      and, when an input is given and the round has changed something so
      far, compare the outputs. */
  function RunPass<P, M, I, T>(m: Manager<P, M>, hooks: Hooks<P, M, I, T>, input: Option<I>, fn: P, st: Run<P, M>)
    : (r: Run<P, M>)
    requires st.raised.None?
    ensures r.ran == st.ran + [fn]
    ensures r.graphModule == hooks.apply(fn, st.graphModule).graphModule
    ensures r.modified == (st.modified || hooks.apply(fn, st.graphModule).modified)
    ensures !m.runChecksAfterEachPass ==> r.raised.None? && r.warnings == st.warnings
    ensures r.raised == Some(InvariantCheckFailed) <==> m.runChecksAfterEachPass && !m.check(r.graphModule)
    ensures r.raised.Some? && r.raised != Some(InvariantCheckFailed) ==>
              m.runChecksAfterEachPass && input.Some? && r.modified && !m.suppressCheckFailures &&
              r.raised.value.CorrectnessCheckFailed? && r.raised.value.pass == fn
    ensures m.runChecksAfterEachPass && m.check(r.graphModule) && input.Some? && r.modified && !m.suppressCheckFailures ==>
              (r.raised.None? <==>
               forall k :: !Mismatch(hooks.evaluate(st.graphModule, input.value), hooks.evaluate(r.graphModule, input.value), hooks.close, k))
    ensures m.suppressCheckFailures ==> r.raised.None? || r.raised == Some(InvariantCheckFailed)
    ensures r.raised.None? ==> st.warnings <= r.warnings
  {
    var before := if m.runChecksAfterEachPass && input.Some? then hooks.evaluate(st.graphModule, input.value) else [];
    var res := hooks.apply(fn, st.graphModule);
    var st1 := st.(graphModule := res.graphModule, modified := st.modified || res.modified, ran := st.ran + [fn]);
    if !m.runChecksAfterEachPass then st1
    else if !m.check(st1.graphModule) then st1.(raised := Some(InvariantCheckFailed))
    else if input.Some? && st1.modified then
      match CheckResEqual(fn, before, hooks.evaluate(st1.graphModule, input.value), hooks.close, m.suppressCheckFailures)
      case Success(ws) => st1.(warnings := st.warnings + ws)
      case Failure(e) => st1.(raised := Some(e))
    else st1
  }

  /** The module after the first `k` passes of this stretch. */
  ghost function ModuleAfter<P, M>(apply: (P, M) -> PassResult<M>, st: Run<P, M>, ran: seq<P>, k: nat): (x: M)
    requires |st.ran| <= k <= |ran|
  {
    Thread(apply, ran[|st.ran|..k], st.graphModule).graphModule
  }

  /** The inner loop over a list of passes, stopping at the first exception:
      the passes run are a prefix of the list, all of it when nothing was
      raised, and only a check can raise. */
  function RunPasses<P, M, I, T>(m: Manager<P, M>, hooks: Hooks<P, M, I, T>, input: Option<I>, ps: seq<P>, st: Run<P, M>)
    : (r: Run<P, M>)
    requires st.raised.None?
    ensures st.ran <= r.ran <= st.ran + ps
    ensures r.raised.None? ==> r.ran == st.ran + ps
    ensures r.raised.Some? ==> m.runChecksAfterEachPass && |r.ran| > |st.ran| && r.raised.value.FromCheck()
    ensures r.raised == Some(InvariantCheckFailed) ==> !m.check(r.graphModule)
    ensures r.raised.Some? && r.raised.value.CorrectnessCheckFailed? ==> input.Some? && !m.suppressCheckFailures
    ensures !m.runChecksAfterEachPass ==> r.raised.None? && r.warnings == st.warnings
    decreases |ps|
  {
    if |ps| == 0 then st
    else
      var st1 := RunPass(m, hooks, input, ps[0], st);
      if st1.raised.Some? then st1
      else
        assert st1.ran + ps[1..] == st.ran + ps;
        RunPasses(m, hooks, input, ps[1..], st1)
  }

  /** The module and flag after the inner loop are those of running, with
      nothing checked, the passes it ran. */
  lemma {:induction false} RunPassesThread<P, M, I, T>(m: Manager<P, M>, hooks: Hooks<P, M, I, T>, input: Option<I>,
                                                        ps: seq<P>, st: Run<P, M>)
    requires st.raised.None?
    ensures var r := RunPasses(m, hooks, input, ps, st);
            |st.ran| <= |r.ran| && r.graphModule == Thread(hooks.apply, r.ran[|st.ran|..], st.graphModule).graphModule
    ensures var r := RunPasses(m, hooks, input, ps, st);
            |st.ran| <= |r.ran| && r.modified == (st.modified || Thread(hooks.apply, r.ran[|st.ran|..], st.graphModule).modified)
    decreases |ps|
  {
    var res := RunPasses(m, hooks, input, ps, st);
    if |ps| == 0 {
      assert res == st;
      assert st.ran[|st.ran|..] == [];
    } else {
      var st1 := RunPass(m, hooks, input, ps[0], st);
      if st1.raised.Some? {
        assert res == st1;
        assert st1.ran[|st.ran|..] == [ps[0]];
      } else {
        assert res == RunPasses(m, hooks, input, ps[1..], st1);
        RunPassesThread(m, hooks, input, ps[1..], st1);
        StretchSteps(hooks.apply, st, st1, res.ran, ps);
      }
    }
  }

  /** The check accepted every module produced along `ran` after `st`,
      except possibly the last. */
  ghost predicate CheckedAlong<P, M>(check: M -> bool, apply: (P, M) -> PassResult<M>, st: Run<P, M>, ran: seq<P>) {
    forall k | |st.ran| < k < |ran| :: check(ModuleAfter(apply, st, ran, k))
  }

  /** With checking on, the check accepted every module the inner loop
      produced before its last one. */
  lemma {:induction false} RunPassesChecked<P, M, I, T>(m: Manager<P, M>, hooks: Hooks<P, M, I, T>, input: Option<I>,
                                                         ps: seq<P>, st: Run<P, M>)
    requires st.raised.None? && m.runChecksAfterEachPass
    ensures CheckedAlong(m.check, hooks.apply, st, RunPasses(m, hooks, input, ps, st).ran)
    decreases |ps|
  {
    var res := RunPasses(m, hooks, input, ps, st);
    if |ps| > 0 {
      var st1 := RunPass(m, hooks, input, ps[0], st);
      if st1.raised.None? {
        assert res == RunPasses(m, hooks, input, ps[1..], st1);
        assert m.check(st1.graphModule);
        RunPassesChecked(m, hooks, input, ps[1..], st1);
        assert CheckedAlong(m.check, hooks.apply, st1, res.ran);
        StretchSteps(hooks.apply, st, st1, res.ran, ps);
        forall k | |st.ran| < k < |res.ran| ensures m.check(ModuleAfter(hooks.apply, st, res.ran, k)) {
          if k > |st1.ran| {
            assert ModuleAfter(hooks.apply, st, res.ran, k) == ModuleAfter(hooks.apply, st1, res.ran, k);
          } else {
            assert ModuleAfter(hooks.apply, st, res.ran, k) == st1.graphModule;
          }
        }
      }
    }
  }

  /** How the stretch from `st` relates to the stretch from `st1`, one pass later. */
  lemma StretchSteps<P, M>(apply: (P, M) -> PassResult<M>, st: Run<P, M>, st1: Run<P, M>, ran: seq<P>, ps: seq<P>)
    requires |ps| > 0 && st1.ran == st.ran + [ps[0]] && st1.graphModule == apply(ps[0], st.graphModule).graphModule
    requires |st1.ran| <= |ran| && ran[..|st1.ran|] == st1.ran
    ensures ran[|st.ran|..] == [ps[0]] + ran[|st1.ran|..]
    ensures Thread(apply, ran[|st.ran|..], st.graphModule).graphModule == Thread(apply, ran[|st1.ran|..], st1.graphModule).graphModule
    ensures Thread(apply, ran[|st.ran|..], st.graphModule).modified ==
            (apply(ps[0], st.graphModule).modified || Thread(apply, ran[|st1.ran|..], st1.graphModule).modified)
    ensures ModuleAfter(apply, st, ran, |st1.ran|) == st1.graphModule
    ensures forall k | |st1.ran| <= k <= |ran| :: ModuleAfter(apply, st, ran, k) == ModuleAfter(apply, st1, ran, k)
  {
    assert ran[|st.ran|..] == [ps[0]] + ran[|st1.ran|..];
    assert ran[|st.ran|..|st1.ran|] == [ps[0]];
    forall k | |st1.ran| <= k <= |ran|
      ensures ModuleAfter(apply, st, ran, k) == ModuleAfter(apply, st1, ran, k)
    {
      assert ran[|st.ran|..k][1..] == ran[|st1.ran|..k];
    }
  }

  /** The module at the start of round `k` when every earlier round ran in
      full from `x`: each round starts from what the previous one produced. */
  ghost function RoundStart<P, M>(apply: (P, M) -> PassResult<M>, ps: seq<P>, x: M, k: nat): (y: M)
  {
    if k == 0 then x else Thread(apply, ps, RoundStart(apply, ps, x, k - 1)).graphModule
  }

  /** `k` full rounds from `x` are `Repeat(ps, k)` run from `x`. */
  lemma {:induction false} RoundStartIsRepeat<P, M>(apply: (P, M) -> PassResult<M>, ps: seq<P>, x: M, k: nat)
    ensures RoundStart(apply, ps, x, k) == Thread(apply, Repeat(ps, k), x).graphModule
  {
    if k > 0 {
      RoundStartIsRepeat(apply, ps, x, k - 1);
      ThreadAppend(apply, Repeat(ps, k - 1), ps, x);
    }
  }

  /** Round `k` reports a change. */
  ghost predicate RoundChanges<P, M>(apply: (P, M) -> PassResult<M>, ps: seq<P>, x: M, k: nat) {
    Thread(apply, ps, RoundStart(apply, ps, x, k)).modified
  }

  /** Of `n` rounds, the last changed nothing. */
  ghost predicate LastRoundSettled<P, M>(apply: (P, M) -> PassResult<M>, ps: seq<P>, x: M, n: nat) {
    n >= 1 && !RoundChanges(apply, ps, x, n - 1)
  }

  /** Of `n` rounds, every one but the last changed something. */
  ghost predicate EarlierRoundsChanged<P, M>(apply: (P, M) -> PassResult<M>, ps: seq<P>, x: M, n: nat) {
    forall k: nat | k + 1 < n :: RoundChanges(apply, ps, x, k)
  }

  /** Rounds counted after the first are rounds counted from the first round's result. */
  lemma {:induction false} RoundShift<P, M>(apply: (P, M) -> PassResult<M>, ps: seq<P>, x: M, k: nat)
    ensures RoundStart(apply, ps, x, k + 1) == RoundStart(apply, ps, Thread(apply, ps, x).graphModule, k)
    ensures RoundChanges(apply, ps, x, k + 1) == RoundChanges(apply, ps, Thread(apply, ps, x).graphModule, k)
  {
    if k > 0 {
      RoundShift(apply, ps, x, k - 1);
    }
  }

  /** Prefixing a changing round keeps both descriptions of the rounds that follow. */
  lemma PrefixRound<P, M>(apply: (P, M) -> PassResult<M>, ps: seq<P>, x: M, n: nat)
    requires Thread(apply, ps, x).modified
    ensures LastRoundSettled(apply, ps, Thread(apply, ps, x).graphModule, n) ==> LastRoundSettled(apply, ps, x, n + 1)
    ensures EarlierRoundsChanged(apply, ps, Thread(apply, ps, x).graphModule, n) ==> EarlierRoundsChanged(apply, ps, x, n + 1)
  {
    if n >= 1 {
      RoundShift(apply, ps, x, n - 1);
    }
    if EarlierRoundsChanged(apply, ps, Thread(apply, ps, x).graphModule, n) {
      forall k: nat | k + 1 < n + 1 ensures RoundChanges(apply, ps, x, k) {
        if k > 0 {
          RoundShift(apply, ps, x, k - 1);
        }
      }
    }
  }

  /** What one round promises about the passes it runs, from a state that
      has not raised: a prefix of the pass list, all of it unless it raised. */
  ghost predicate RoundRuns<P, M>(round: Run<P, M> -> Run<P, M>, ps: seq<P>, st: Run<P, M>) {
    st.raised.None? ==>
      && st.ran <= round(st).ran <= st.ran + ps
      && (round(st).raised.None? ==> round(st).ran == st.ran + ps)
  }

  /** What one round promises about the module, from a state that has not
      raised and whose round flag is clear: it is the module that running the
      passes it ran produces, and when it did not raise, its flag says
      whether any pass changed something. */
  ghost predicate RoundThreads<P, M>(round: Run<P, M> -> Run<P, M>, apply: (P, M) -> PassResult<M>, ps: seq<P>, st: Run<P, M>) {
    st.raised.None? && !st.modified && |st.ran| <= |round(st).ran| ==>
      && round(st).graphModule == Thread(apply, round(st).ran[|st.ran|..], st.graphModule).graphModule
      && (round(st).raised.None? ==> round(st).modified == Thread(apply, ps, st.graphModule).modified)
  }

  /** A round that raises, raises only what `allowed` admits of the
      exception and the module it left. */
  ghost predicate RoundRaisesOnly<P, M>(round: Run<P, M> -> Run<P, M>, allowed: (Failure<P>, M) -> bool, st: Run<P, M>) {
    st.raised.None? && round(st).raised.Some? ==> allowed(round(st).raised.value, round(st).graphModule)
  }

  /** When the pass loop may raise `e`, leaving module `x`: only with
      `run_checks_after_each_pass`; the invariant check only when it rejects
      `x`; the correctness check only with an example input and without
      `suppress_check_failures`. */
  predicate PassRaise<P, M, I>(m: Manager<P, M>, input: Option<I>, e: Failure<P>, x: M) {
    && m.runChecksAfterEachPass
    && (e.InvariantCheckFailed? ==> !m.check(x))
    && (e.InvariantCheckFailed? || (e.CorrectnessCheckFailed? && input.Some? && !m.suppressCheckFailures))
  }

  /** One round: the inner loop over the whole pass list. */
  function RunRound<P, M, I, T>(m: Manager<P, M>, hooks: Hooks<P, M, I, T>, input: Option<I>, st: Run<P, M>)
    : (r: Run<P, M>)
    ensures st.raised.None? ==> st.ran <= r.ran <= st.ran + m.passes
    ensures st.raised.None? ==> r.graphModule == Thread(hooks.apply, r.ran[|st.ran|..], st.graphModule).graphModule
    ensures st.raised.None? && r.raised.None? ==> r.ran == st.ran + m.passes
    ensures st.raised.None? && r.raised.None? && !st.modified ==> r.modified == Thread(hooks.apply, m.passes, st.graphModule).modified
    ensures st.raised.None? && r.raised.Some? ==> r.raised.value.FromCheck()
    ensures st.raised.None? && r.raised.Some? ==> PassRaise(m, input, r.raised.value, r.graphModule)
  {
    if st.raised.Some? then st
    else
      var r := RunPasses(m, hooks, input, m.passes, st);
      RunPassesThread(m, hooks, input, m.passes, st);
      if r.raised.None? then
        assert r.ran[|st.ran|..] == m.passes;
        r
      else r
  }

  /** `PassRaise` of a given manager and input, as a function. */
  function RaiseAllowed<P, M, I>(m: Manager<P, M>, input: Option<I>): (allowed: (Failure<P>, M) -> bool)
  {
    (e, y) => PassRaise(m, input, e, y)
  }

  /** `RunRound` of a given manager, as a round function. */
  function RoundOf<P, M, I, T>(m: Manager<P, M>, hooks: Hooks<P, M, I, T>, input: Option<I>): (round: Run<P, M> -> Run<P, M>)
  {
    s => RunRound(m, hooks, input, s)
  }

  lemma RoundOfContract<P, M, I, T>(m: Manager<P, M>, hooks: Hooks<P, M, I, T>, input: Option<I>)
    ensures forall s :: RoundRuns(RoundOf(m, hooks, input), m.passes, s)
    ensures forall s :: RoundThreads(RoundOf(m, hooks, input), hooks.apply, m.passes, s)
    ensures forall s :: RoundRaisesOnly(RoundOf(m, hooks, input), RaiseAllowed(m, input), s)
  {
    forall s ensures RoundRaisesOnly(RoundOf(m, hooks, input), RaiseAllowed(m, input), s) {
      assert RoundOf(m, hooks, input)(s) == RunRound(m, hooks, input, s);
    }
    forall s ensures RoundRuns(RoundOf(m, hooks, input), m.passes, s) {
      assert RoundOf(m, hooks, input)(s) == RunRound(m, hooks, input, s);
    }
    forall s ensures RoundThreads(RoundOf(m, hooks, input), hooks.apply, m.passes, s) {
      assert RoundOf(m, hooks, input)(s) == RunRound(m, hooks, input, s);
    }
  }

  /** The outer loop of `__call__`, at most `steps` iterations of a round function, with
      `st.modified` holding `overall_modified`: a budget of zero or less runs
      no round; a round that raises ends the call; a round that changes
      nothing ends the loop. Returns the final state and the number of rounds
      started, which never exceeds the budget. */
  function Rounds<P, M>(round: Run<P, M> -> Run<P, M>, left: int, st: Run<P, M>): (r: (Run<P, M>, nat))
    ensures r.1 <= (if left > 0 then left else 0)
    ensures left > 0 && st.raised.None? ==> r.1 >= 1
    decreases left
  {
    if left <= 0 || st.raised.Some? then (st, 0)
    else
      var r := round(st.(modified := false));
      if r.raised.Some? then (r, 1)
      else if !r.modified then (r.(modified := st.modified), 1)
      else
        var rest := Rounds(round, left - 1, r.(modified := true));
        (rest.0, rest.1 + 1)
  }

  /** One more full round in front keeps the trace a prefix of the repetition. */
  lemma TraceStep<P>(before: seq<P>, ps: seq<P>, after: seq<P>, ran: seq<P>, n: nat)
    requires after == before + ps && after <= ran <= after + Repeat(ps, n)
    ensures before <= ran <= before + Repeat(ps, n + 1)
    ensures ran == after + Repeat(ps, n) ==> ran == before + Repeat(ps, n + 1)
  {
    RepeatFront(ps, n);
    assert before + Repeat(ps, n + 1) == after + Repeat(ps, n);
  }

  /** The passes run are `n` copies of the pass list back to back, `n` the
      number of rounds started; when a round raised, a prefix of that. */
  lemma {:induction false} RoundsTrace<P, M>(round: Run<P, M> -> Run<P, M>, ps: seq<P>,
                                             left: int, st: Run<P, M>)
    requires forall s :: RoundRuns(round, ps, s)
    requires st.raised.None?
    ensures var r := Rounds(round, left, st); st.ran <= r.0.ran <= st.ran + Repeat(ps, r.1)
    ensures var r := Rounds(round, left, st); r.0.raised.None? ==> r.0.ran == st.ran + Repeat(ps, r.1)
    decreases left
  {
    var res := Rounds(round, left, st);
    if left <= 0 {
      assert res == (st, 0);
      assert st.ran + Repeat(ps, 0) == st.ran;
    } else {
      var st0 := st.(modified := false);
      var r := round(st0);
      assert RoundRuns(round, ps, st0);
      assert st0.ran == st.ran;
      assert st.ran + Repeat(ps, 1) == st.ran + ps by {
        assert Repeat(ps, 1) == ps;
      }
      if r.raised.Some? {
        assert res == (r, 1);
      } else if !r.modified {
        assert res == (r.(modified := st.modified), 1);
      } else {
        var next := r.(modified := true);
        var rest := Rounds(round, left - 1, next);
        assert res == (rest.0, rest.1 + 1);
        RoundsTrace(round, ps, left - 1, next);
        TraceStep(st.ran, ps, next.ran, rest.0.ran, rest.1);
      }
    }
  }

  /** A full round of `ps` taking the trace from `a` to `b`, followed by
      a stretch taking it from `b` to `c`, is one stretch from `a` to `c`. */
  lemma ThreadCompose<P, M>(apply: (P, M) -> PassResult<M>, ps: seq<P>, a: seq<P>, x: M, b: seq<P>, y: M, c: seq<P>)
    requires b == a + ps && y == Thread(apply, ps, x).graphModule && b <= c
    ensures a <= c
    ensures Thread(apply, c[|a|..], x).graphModule == Thread(apply, c[|b|..], y).graphModule
    ensures Thread(apply, c[|a|..], x).modified == (Thread(apply, ps, x).modified || Thread(apply, c[|b|..], y).modified)
  {
    assert c[|a|..] == ps + c[|b|..];
    ThreadAppend(apply, ps, c[|b|..], x);
  }

  /** The module and the overall flag are those of running, with nothing
      checked, exactly the passes that were run. */
  lemma {:induction false} RoundsThread<P, M>(round: Run<P, M> -> Run<P, M>, apply: (P, M) -> PassResult<M>, ps: seq<P>,
                                              left: int, st: Run<P, M>)
    requires forall s :: RoundRuns(round, ps, s)
    requires forall s :: RoundThreads(round, apply, ps, s)
    requires st.raised.None?
    ensures var r := Rounds(round, left, st);
            |st.ran| <= |r.0.ran| &&
            r.0.graphModule == Thread(apply, r.0.ran[|st.ran|..], st.graphModule).graphModule
    ensures var r := Rounds(round, left, st);
            |st.ran| <= |r.0.ran| &&
            (r.0.raised.None? ==> r.0.modified == (st.modified || Thread(apply, r.0.ran[|st.ran|..], st.graphModule).modified))
    decreases left
  {
    var res := Rounds(round, left, st);
    RoundsTrace(round, ps, left, st);
    if left <= 0 {
      assert res == (st, 0);
      assert st.ran[|st.ran|..] == [];
    } else {
      var st0 := st.(modified := false);
      var r := round(st0);
      assert RoundRuns(round, ps, st0) && RoundThreads(round, apply, ps, st0);
      assert st0.ran == st.ran && st0.graphModule == st.graphModule;
      if r.raised.Some? {
        assert res == (r, 1);
      } else if !r.modified {
        assert res == (r.(modified := st.modified), 1);
        assert r.ran[|st.ran|..] == ps;
      } else {
        var next := r.(modified := true);
        var rest := Rounds(round, left - 1, next);
        assert res == (rest.0, rest.1 + 1);
        assert next.ran[|st.ran|..] == ps;
        RoundsThread(round, apply, ps, left - 1, next);
        RoundsTrace(round, ps, left - 1, next);
        ThreadCompose(apply, ps, st.ran, st.graphModule, next.ran, next.graphModule, rest.0.ran);
      }
    }
  }

  /** The loop stops exactly at a fixed point: every round before the last
      changed the module, and when rounds were left over the last one changed
      nothing. Round `k` starts from the module that `k` full rounds produce. */
  lemma {:induction false} RoundsStop<P, M>(round: Run<P, M> -> Run<P, M>, apply: (P, M) -> PassResult<M>, ps: seq<P>,
                                            left: int, st: Run<P, M>)
    requires forall s :: RoundRuns(round, ps, s)
    requires forall s :: RoundThreads(round, apply, ps, s)
    requires st.raised.None?
    ensures var r := Rounds(round, left, st);
            r.0.raised.None? && r.1 < left ==> LastRoundSettled(apply, ps, st.graphModule, r.1)
    ensures EarlierRoundsChanged(apply, ps, st.graphModule, Rounds(round, left, st).1)
    decreases left
  {
    if left > 0 {
      var st0 := st.(modified := false);
      var r := round(st0);
      assert RoundRuns(round, ps, st0) && RoundThreads(round, apply, ps, st0);
      assert RoundStart(apply, ps, st.graphModule, 0) == st.graphModule;
      if r.raised.None? && !r.modified {
        assert Rounds(round, left, st).1 == 1;
        assert LastRoundSettled(apply, ps, st.graphModule, 1);
      } else if r.raised.None? {
        var next := r.(modified := true);
        var rest := Rounds(round, left - 1, next);
        assert Rounds(round, left, st) == (rest.0, rest.1 + 1);
        RoundsStop(round, apply, ps, left - 1, next);
        assert next.graphModule == Thread(apply, ps, st.graphModule).graphModule;
        PrefixRound(apply, ps, st.graphModule, rest.1);
      }
    }
  }

  /** The loop raises only what a single round may raise: whatever it
      raised, `allowed` admits of the exception and the final module. */
  lemma {:induction false} RoundsRaise<P, M>(round: Run<P, M> -> Run<P, M>, allowed: (Failure<P>, M) -> bool,
                                             left: int, st: Run<P, M>)
    requires forall s :: RoundRaisesOnly(round, allowed, s)
    requires st.raised.None?
    ensures var r := Rounds(round, left, st); r.0.raised.Some? ==> allowed(r.0.raised.value, r.0.graphModule)
    decreases left
  {
    if left > 0 {
      var st0 := st.(modified := false);
      var r := round(st0);
      assert RoundRaisesOnly(round, allowed, st0);
      if r.raised.None? && r.modified {
        var next := r.(modified := true);
        assert Rounds(round, left, st).0 == Rounds(round, left - 1, next).0;
        RoundsRaise(round, allowed, left - 1, next);
      }
    }
  }

  /** What `__call__` leaves behind: the manager (whose pass list the solve
      may have reordered), the final state of the run, and the number of
      rounds started. */
  datatype CallResult<!P, !M> = CallResult(manager: Manager<P, M>, run: Run<P, M>, rounds: nat)

  /** The state before any pass runs on module `x`. */
  function Start<P, M>(x: M): (st: Run<P, M>)
    ensures st.raised.None? && st.ran == [] && st.warnings == [] && !st.modified && st.graphModule == x
  {
    Run(x, false, [], [], None)
  }

  /** The first step of `__call__`: a validated manager keeps its own
      order; otherwise the constraints are solved, so the pass list is
      sorted, and a circular dependency under a one-round budget raises. */
  function SolveUnlessValidated<P(==, !new), M>(m: Manager<P, M>): (r: (Manager<P, M>, Outcome<Failure<P>>))
    ensures r.0 == m.(passes := r.0.passes)
    ensures m.validated ==> r == (m, Pass)
    ensures r.1.Fail? ==> !m.validated && m.steps == 1 && r.1.error == CircularDependency
  {
    if m.validated then (m, Pass) else SolveConstraints(m)
  }

  /** The schedule settled before the rounds: a permutation of distinct
      passes; the raise happens exactly when the manager was not validated,
      one round is allowed and no ordering satisfies every constraint; and
      the schedule satisfies every constraint when one round is allowed or
      the manager was validated, or when some ordering of distinct passes
      does. */
  lemma SolveUnlessValidatedSchedule<P(!new), M>(m: Manager<P, M>)
    ensures !m.validated ==> SolveUnlessValidated(m).0.passes == TopologicalSortPasses(m.passes, m.constraints).0
    ensures NoDup(m.passes) ==> multiset(SolveUnlessValidated(m).0.passes) == multiset(m.passes)
    ensures NoDup(m.passes) && !m.validated ==>
              (SolveUnlessValidated(m).1.Fail? <==> m.steps == 1 && Unschedulable(m.passes, m.constraints))
    ensures NoDup(m.passes) && !m.validated && !Unschedulable(m.passes, m.constraints) ==>
              RespectsAll(m.constraints, SolveUnlessValidated(m).0.passes)
    ensures Consistent(m) ==> Consistent(SolveUnlessValidated(m).0)
    ensures var r := SolveUnlessValidated(m);
            r.1.Pass? && Consistent(m) && (m.steps == 1 || m.validated) ==> RespectsAll(m.constraints, r.0.passes)
  {
    if !m.validated {
      assert SolveUnlessValidated(m) == SolveConstraints(m);
    }
  }

  /** The part of `__call__` after the schedule is settled: check the module
      once before any pass, then run the rounds. Whatever is raised comes from
      a check: the first check rejecting the input module, or a check the
      pass loop runs (`PassRaise`). So an accepted module with checks off
      never raises. */
  function CheckThenRun<P, M, I, T>(m: Manager<P, M>, hooks: Hooks<P, M, I, T>, input: Option<I>, x: M)
    : (r: CallResult<P, M>)
    ensures r.manager == m
    ensures r.rounds <= (if m.steps > 0 then m.steps else 0)
    ensures !m.check(x) ==> r.rounds == 0 && r.run.ran == [] && r.run.raised == Some(InvariantCheckFailed)
    ensures r.run.raised.None? && m.steps > 0 ==> r.rounds >= 1
    ensures r.run.raised.Some? ==> r.run.raised.value.FromCheck()
    ensures m.check(x) && r.run.raised.Some? ==> PassRaise(m, input, r.run.raised.value, r.run.graphModule)
    ensures m.check(x) && !m.runChecksAfterEachPass ==> r.run.raised.None?
  {
    if !m.check(x) then CallResult(m, Start(x).(raised := Some(InvariantCheckFailed)), 0)
    else
      var rr := Rounds(RoundOf(m, hooks, input), m.steps, Start(x));
      RoundOfContract(m, hooks, input);
      RoundsRaise(RoundOf(m, hooks, input), RaiseAllowed(m, input), m.steps, Start(x));
      CallResult(m, rr.0, rr.1)
  }

  /** `PassManager.__call__(module, input=...)`: the schedule is settled
      first, and a circular dependency under a one-round budget raises before
      anything runs; otherwise the check and the rounds follow. Only the
      order of the pass list can change on the manager, and only when it was
      not validated. */
  function Call<P(==, !new), M, I, T>(m: Manager<P, M>, hooks: Hooks<P, M, I, T>, input: Option<I>, x: M)
    : (r: CallResult<P, M>)
    ensures r.manager == m.(passes := r.manager.passes)
    ensures m.validated ==> r.manager == m
    ensures r.rounds <= (if m.steps > 0 then m.steps else 0)
    ensures r.run.raised == Some(CircularDependency) ==> !m.validated && m.steps == 1 && r.rounds == 0 && r.run.ran == []
    ensures !m.check(x) ==> r.rounds == 0 && r.run.ran == [] && r.run.raised.Some?
    ensures r.run.raised.None? && m.steps > 0 ==> r.rounds >= 1
  {
    var solved := SolveUnlessValidated(m);
    if solved.1.Fail? then CallResult(solved.0, Start(x).(raised := Some(solved.1.error)), 0)
    else CheckThenRun(solved.0, hooks, input, x)
  }

  /** When `__call__` raises: a circular dependency from the solve, or the
      first check rejecting the input module, or what the pass loop may raise
      (`PassRaise`). Hence an accepted module with checks off raises nothing
      but the circular dependency, suppression leaves no correctness failure,
      and an invariant failure always has a rejected module behind it. */
  lemma CallRaises<P(!new), M, I, T>(m: Manager<P, M>, hooks: Hooks<P, M, I, T>, input: Option<I>, x: M)
    ensures var r := Call(m, hooks, input, x);
            r.run.raised.Some? && r.run.raised != Some(CircularDependency) && m.check(x) ==>
              PassRaise(m, input, r.run.raised.value, r.run.graphModule)
    ensures var r := Call(m, hooks, input, x);
            m.check(x) && !m.runChecksAfterEachPass ==> r.run.raised.None? || r.run.raised == Some(CircularDependency)
    ensures var r := Call(m, hooks, input, x);
            m.suppressCheckFailures ==> !(r.run.raised.Some? && r.run.raised.value.CorrectnessCheckFailed?)
    ensures var r := Call(m, hooks, input, x);
            r.run.raised.Some? && r.run.raised.value.InvariantCheckFailed? ==> !m.check(x) || !m.check(r.run.graphModule)
  {
    var solved := SolveUnlessValidated(m);
    var r := Call(m, hooks, input, x);
    if solved.1.Pass? {
      assert r == CheckThenRun(solved.0, hooks, input, x);
    }
  }

  /** The schedule `__call__` runs: a permutation of distinct passes; a
      circular dependency is raised exactly when the manager was not
      validated, one round is allowed and no ordering satisfies every
      constraint; and the schedule satisfies every constraint whenever one
      round is allowed or the manager was validated, or some ordering of
      distinct passes does. An unvalidated manager runs the sorted list. */
  lemma CallSchedule<P(!new), M, I, T>(m: Manager<P, M>, hooks: Hooks<P, M, I, T>, input: Option<I>, x: M)
    ensures !m.validated ==> Call(m, hooks, input, x).manager.passes == TopologicalSortPasses(m.passes, m.constraints).0
    ensures var r := Call(m, hooks, input, x);
            NoDup(m.passes) ==> multiset(r.manager.passes) == multiset(m.passes)
    ensures var r := Call(m, hooks, input, x);
            NoDup(m.passes) && !m.validated && !Unschedulable(m.passes, m.constraints) ==>
              RespectsAll(m.constraints, r.manager.passes)
    ensures Consistent(m) ==> Consistent(Call(m, hooks, input, x).manager)
    ensures var r := Call(m, hooks, input, x);
            NoDup(m.passes) && !m.validated ==>
              (r.run.raised == Some(CircularDependency) <==> m.steps == 1 && Unschedulable(m.passes, m.constraints))
    ensures var r := Call(m, hooks, input, x);
            r.run.raised != Some(CircularDependency) && Consistent(m) && (m.steps == 1 || m.validated) ==>
              RespectsAll(m.constraints, r.manager.passes)
  {
    var solved := SolveUnlessValidated(m);
    SolveUnlessValidatedSchedule(m);
    var r := Call(m, hooks, input, x);
    assert r.manager == solved.0;
    if solved.1.Pass? {
      assert r == CheckThenRun(solved.0, hooks, input, x);
      assert r.run.raised != Some(CircularDependency);
    }
  }

  /** The passes run after the schedule is settled are the schedule
      repeated once per round started (a prefix of that when something
      raised), and the module and overall flag are those of running exactly
      those passes from `x` with nothing checked. */
  lemma CheckThenRunRuns<P, M, I, T>(m: Manager<P, M>, hooks: Hooks<P, M, I, T>, input: Option<I>, x: M)
    ensures var r := CheckThenRun(m, hooks, input, x); r.run.ran <= Repeat(m.passes, r.rounds)
    ensures var r := CheckThenRun(m, hooks, input, x); r.run.raised.None? ==> r.run.ran == Repeat(m.passes, r.rounds)
    ensures var r := CheckThenRun(m, hooks, input, x); r.run.graphModule == Thread(hooks.apply, r.run.ran, x).graphModule
    ensures var r := CheckThenRun(m, hooks, input, x);
            r.run.raised.None? ==> r.run.modified == Thread(hooks.apply, r.run.ran, x).modified
  {
    var r := CheckThenRun(m, hooks, input, x);
    if m.check(x) {
      var round := RoundOf(m, hooks, input);
      var rr := Rounds(round, m.steps, Start(x));
      assert r == CallResult(m, rr.0, rr.1);
      RoundOfContract(m, hooks, input);
      RoundsTrace(round, m.passes, m.steps, Start(x));
      RoundsThread(round, hooks.apply, m.passes, m.steps, Start(x));
      assert [] + Repeat(m.passes, rr.1) == Repeat(m.passes, rr.1);
      assert rr.0.ran[0..] == rr.0.ran;
    }
  }

  /** The passes `__call__` ran are the schedule repeated once per round
      started (a prefix of that when something raised), and the module and
      overall flag it returns are those of running exactly those passes
      from `x` with nothing checked. */
  lemma CallRuns<P(!new), M, I, T>(m: Manager<P, M>, hooks: Hooks<P, M, I, T>, input: Option<I>, x: M)
    ensures var r := Call(m, hooks, input, x); r.run.ran <= Repeat(r.manager.passes, r.rounds)
    ensures var r := Call(m, hooks, input, x); r.run.raised.None? ==> r.run.ran == Repeat(r.manager.passes, r.rounds)
    ensures var r := Call(m, hooks, input, x); r.run.graphModule == Thread(hooks.apply, r.run.ran, x).graphModule
    ensures var r := Call(m, hooks, input, x);
            r.run.raised.None? ==> r.run.modified == Thread(hooks.apply, r.run.ran, x).modified
  {
    var solved := SolveUnlessValidated(m);
    if solved.1.Pass? {
      assert Call(m, hooks, input, x) == CheckThenRun(solved.0, hooks, input, x);
      CheckThenRunRuns(solved.0, hooks, input, x);
    }
  }

  /** `__call__` stops exactly at a fixed point: every round but the last
      changed the module, and if it stopped before the budget ran out without
      raising, the last round changed nothing. */
  lemma CallStops<P(!new), M, I, T>(m: Manager<P, M>, hooks: Hooks<P, M, I, T>, input: Option<I>, x: M)
    ensures var r := Call(m, hooks, input, x); EarlierRoundsChanged(hooks.apply, r.manager.passes, x, r.rounds)
    ensures var r := Call(m, hooks, input, x);
            r.run.raised.None? && r.rounds < m.steps ==> LastRoundSettled(hooks.apply, r.manager.passes, x, r.rounds)
  {
    var solved := SolveUnlessValidated(m);
    var r := Call(m, hooks, input, x);
    if solved.1.Pass? && solved.0.check(x) {
      var m1 := solved.0;
      var round := RoundOf(m1, hooks, input);
      assert r == CallResult(m1, Rounds(round, m1.steps, Start(x)).0, Rounds(round, m1.steps, Start(x)).1);
      RoundOfContract(m1, hooks, input);
      RoundsStop(round, hooks.apply, m1.passes, m1.steps, Start(x));
    } else {
      assert r.rounds == 0;
    }
  }

  /** Passes that never report a change leave the flag clear however they are run. */
  lemma {:induction false} ThreadUnchanged<P, M>(apply: (P, M) -> PassResult<M>, ps: seq<P>, x: M)
    requires forall p, y :: !apply(p, y).modified
    ensures !Thread(apply, ps, x).modified
  {
    if |ps| > 0 {
      ThreadUnchanged(apply, ps[1..], apply(ps[0], x).graphModule);
    }
  }

  /** When no pass ever reports a change, `__call__` settles at once: exactly
      one round runs (unless something raised or the budget is not positive)
      and the call reports no change. */
  lemma CallSettlesAtOnce<P(!new), M, I, T>(m: Manager<P, M>, hooks: Hooks<P, M, I, T>, input: Option<I>, x: M)
    requires forall p, y :: !hooks.apply(p, y).modified
    ensures var r := Call(m, hooks, input, x); r.run.raised.None? && m.steps > 0 ==> r.rounds == 1 && !r.run.modified
  {
    var r := Call(m, hooks, input, x);
    var ps := r.manager.passes;
    CallRuns(m, hooks, input, x);
    CallStops(m, hooks, input, x);
    ThreadUnchanged(hooks.apply, ps, x);
    ThreadUnchanged(hooks.apply, r.run.ran, x);
    if r.run.raised.None? && m.steps > 0 {
      assert !RoundChanges(hooks.apply, ps, x, 0);
    }
  }

  /** A schedule that changes the module in every round uses the whole
      budget: `steps` rounds run unless something raises. */
  lemma CallUsesBudget<P(!new), M, I, T>(m: Manager<P, M>, hooks: Hooks<P, M, I, T>, input: Option<I>, x: M)
    requires forall k: nat | k < m.steps :: RoundChanges(hooks.apply, Call(m, hooks, input, x).manager.passes, x, k)
    ensures var r := Call(m, hooks, input, x); r.run.raised.None? ==> r.rounds == (if m.steps > 0 then m.steps else 0)
  {
    CallStops(m, hooks, input, x);
  }

  /** With checks off and an accepted module, nothing but a circular
      dependency keeps the two results above from applying: passes that never
      report a change settle in one round, and passes that change the module
      every round use the whole budget. */
  lemma CallWithoutChecks<P(!new), M, I, T>(m: Manager<P, M>, hooks: Hooks<P, M, I, T>, input: Option<I>, x: M)
    requires m.check(x) && !m.runChecksAfterEachPass
    ensures var r := Call(m, hooks, input, x);
            (forall p, y :: !hooks.apply(p, y).modified) && r.run.raised != Some(CircularDependency) && m.steps > 0 ==>
              r.rounds == 1 && !r.run.modified
    ensures var r := Call(m, hooks, input, x);
            (forall k: nat | k < m.steps :: RoundChanges(hooks.apply, r.manager.passes, x, k)) &&
            r.run.raised != Some(CircularDependency) ==>
              r.rounds == (if m.steps > 0 then m.steps else 0)
  {
    CallRaises(m, hooks, input, x);
    if forall p, y :: !hooks.apply(p, y).modified {
      CallSettlesAtOnce(m, hooks, input, x);
    }
    if forall k: nat | k < m.steps :: RoundChanges(hooks.apply, Call(m, hooks, input, x).manager.passes, x, k) {
      CallUsesBudget(m, hooks, input, x);
    }
  }

  /** `add_pass` makes the next call sort again: for distinct passes the
      call runs a permutation of the extended list, which satisfies every
      constraint when one round is allowed and no cycle was raised. */
  lemma AddPassThenCall<P(!new), M, I, T>(m: Manager<P, M>, p: P, hooks: Hooks<P, M, I, T>, input: Option<I>, x: M)
    ensures var r := Call(AddPass(m, p), hooks, input, x);
            NoDup(m.passes + [p]) ==> multiset(r.manager.passes) == multiset(m.passes + [p])
    ensures var r := Call(AddPass(m, p), hooks, input, x);
            m.steps == 1 && r.run.raised != Some(CircularDependency) ==> RespectsAll(m.constraints, r.manager.passes)
    ensures var r := Call(AddPass(m, p), hooks, input, x);
            NoDup(m.passes + [p]) && !Unschedulable(m.passes + [p], m.constraints) ==>
              RespectsAll(m.constraints, r.manager.passes)
  {
    CallSchedule(AddPass(m, p), hooks, input, x);
  }

  /** After a successful `validate_constraints`, `__call__` runs the passes
      in the order they were given, and that order satisfies every
      constraint. */
  lemma ValidatedCallKeepsOrder<P(!new), M, I, T>(m: Manager<P, M>, hooks: Hooks<P, M, I, T>, input: Option<I>, x: M)
    requires ValidateConstraints(m).1.Pass? && Consistent(m)
    ensures Call(ValidateConstraints(m).0, hooks, input, x).manager.passes == m.passes
    ensures RespectsAll(m.constraints, Call(ValidateConstraints(m).0, hooks, input, x).manager.passes)
  {
  }
}

=== FILE: graph.dfy ===
/** The first half of `topological_sort_passes`: building the dependency
    graph from every ordered pair of passes and every constraint. */
module DependencyGraph {
  import opened Seqs
  import opened Schedule

  /** `graph[p]` lists the passes that must run after `p`: it receives `a`
      whenever some constraint refuses `a` before `p`. A pass is listed once
      per refusing constraint, in scanning order. */
  type Graph<P> = map<P, seq<P>>

  /** Rows `0 .. rows - 1` of the scan contain a pair of distinct positions
      holding `x` (outer loop) and `y` (inner loop) with a constraint refusing
      `x` before `y`; the scan then appended `x` to `graph[y]`. */
  ghost predicate EdgeInRows<P>(passes: seq<P>, cs: seq<Constraint<P>>, x: P, y: P, rows: int) {
    exists i, j | 0 <= i < rows && i < |passes| && 0 <= j < |passes| && i != j ::
      passes[i] == x && passes[j] == y && !Permits(cs, x, y)
  }

  /** Some pair of positions j < i, with i in the first `rows` rows, is refused
      in both orders. */
  ghost predicate MutualInRows<P>(passes: seq<P>, cs: seq<Constraint<P>>, rows: int) {
    exists i, j | 0 <= j < i < rows && i < |passes| ::
      !Permits(cs, passes[i], passes[j]) && !Permits(cs, passes[j], passes[i])
  }

  /** Some two distinct positions hold passes refused in both orders: the
      "circular dependency" the scan detects directly. */
  ghost predicate HasMutualRefusal<P>(passes: seq<P>, cs: seq<Constraint<P>>) {
    exists i, j | 0 <= i < |passes| && 0 <= j < |passes| && i != j ::
      !Permits(cs, passes[i], passes[j]) && !Permits(cs, passes[j], passes[i])
  }

  /** `g` is exactly the graph the scan has built once rows `0 .. rows - 1`
      are done: one key per pass, and the edges of those rows. */
  ghost predicate GraphAfterRows<P(!new)>(passes: seq<P>, cs: seq<Constraint<P>>, g: Graph<P>, rows: int) {
    && (forall p :: p in g <==> p in passes)
    && (forall x, y | y in g :: x in g[y] <==> EdgeInRows(passes, cs, x, y, rows))
  }

  /** The graph before any constraint is read: every pass is a key with no
      dependencies. */
  function InitGraph<P(!new)>(passes: seq<P>): (g: Graph<P>)
    ensures GraphAfterRows(passes, [], g, 0)
  {
    map p | p in passes :: []
  }

  /** The innermost loop, over the constraints, for the pair (a, b): each
      constraint refusing `a` before `b` first flags a circular dependency if
      `b` is already in `graph[a]`, then appends `a` to `graph[b]`. */
  function AddDependencies<P(==, !new)>(cs: seq<Constraint<P>>, a: P, b: P, g: Graph<P>, circular: bool): (r: (Graph<P>, bool))
    requires a in g && b in g
    ensures r.0.Keys == g.Keys
    ensures forall y | y in g && y != b :: r.0[y] == g[y]
    ensures forall x :: x in r.0[b] <==> x in g[b] || (x == a && !Permits(cs, a, b))
    ensures a != b ==> (r.1 <==> circular || (!Permits(cs, a, b) && b in g[a]))
    decreases |cs|
  {
    if |cs| == 0 then (g, circular)
    else
      assert Permits(cs, a, b) <==> cs[0](a, b) && Permits(cs[1..], a, b) by {
        assert forall k | 1 <= k < |cs| :: cs[k] == cs[1..][k - 1];
      }
      if cs[0](a, b) then AddDependencies(cs[1..], a, b, g, circular)
      else AddDependencies(cs[1..], a, b, g[b := g[b] + [a]], circular || b in g[a])
  }

  /** The middle loop: row `i` of the scan, from column `j` on, skipping i == j. */
  function BuildRow<P(==, !new)>(passes: seq<P>, cs: seq<Constraint<P>>, i: nat, j: nat, g: Graph<P>, circular: bool): (r: (Graph<P>, bool))
    requires i < |passes| && j <= |passes|
    requires forall p | p in passes :: p in g
    ensures r.0.Keys == g.Keys
    ensures forall x, y | y in g :: x in r.0[y] <==>
              x in g[y] || (x == passes[i] && !Permits(cs, x, y) &&
                            exists j' | j <= j' < |passes| && j' != i :: passes[j'] == y)
    ensures NoDup(passes) ==> r.0[passes[i]] == g[passes[i]]
    ensures NoDup(passes) ==>
              (r.1 <==> circular || exists j' | j <= j' < |passes| && j' != i ::
                                       !Permits(cs, passes[i], passes[j']) && passes[j'] in g[passes[i]])
    decreases |passes| - j
  {
    if j == |passes| then (g, circular)
    else if i == j then BuildRow(passes, cs, i, j + 1, g, circular)
    else
      var step := AddDependencies(cs, passes[i], passes[j], g, circular);
      BuildRow(passes, cs, i, j + 1, step.0, step.1)
  }

  /** After row `i`, the graph holds exactly the edges of rows `0 .. i`. */
  lemma RowStepGraph<P(!new)>(passes: seq<P>, cs: seq<Constraint<P>>, i: nat, g: Graph<P>, circular: bool)
    requires i < |passes| && GraphAfterRows(passes, cs, g, i)
    ensures GraphAfterRows(passes, cs, BuildRow(passes, cs, i, 0, g, circular).0, i + 1)
  {
    var g1 := BuildRow(passes, cs, i, 0, g, circular).0;
    forall x, y | y in g1
      ensures x in g1[y] <==> EdgeInRows(passes, cs, x, y, i + 1)
    {
      if EdgeInRows(passes, cs, x, y, i + 1) {
        var i', j' :| 0 <= i' < i + 1 && i' < |passes| && 0 <= j' < |passes| && i' != j' &&
                      passes[i'] == x && passes[j'] == y && !Permits(cs, x, y);
        if i' < i {
          assert EdgeInRows(passes, cs, x, y, i);
        }
      }
    }
  }

  /** A flag raised in row `i` (and not before) comes from a pair refused both ways. */
  lemma RowFlagSound<P(!new)>(passes: seq<P>, cs: seq<Constraint<P>>, i: nat, g: Graph<P>, circular: bool)
    requires i < |passes| && NoDup(passes) && GraphAfterRows(passes, cs, g, i)
    requires !circular && BuildRow(passes, cs, i, 0, g, circular).1
    ensures MutualInRows(passes, cs, i + 1)
  {
    var a := passes[i];
    var j' :| 0 <= j' < |passes| && j' != i && !Permits(cs, a, passes[j']) && passes[j'] in g[a];
    assert EdgeInRows(passes, cs, passes[j'], a, i);
    var i2, j2 :| 0 <= i2 < i && i2 < |passes| && 0 <= j2 < |passes| && i2 != j2 &&
                  passes[i2] == passes[j'] && passes[j2] == a && !Permits(cs, passes[j'], a);
    assert i2 == j';
  }

  /** A pair refused both ways whose later position is row `i` raises the flag in row `i`. */
  lemma RowFlagComplete<P(!new)>(passes: seq<P>, cs: seq<Constraint<P>>, i: nat, g: Graph<P>, circular: bool)
    requires i < |passes| && NoDup(passes) && GraphAfterRows(passes, cs, g, i)
    requires MutualInRows(passes, cs, i + 1) && !MutualInRows(passes, cs, i)
    ensures BuildRow(passes, cs, i, 0, g, circular).1
  {
    var i', j' :| 0 <= j' < i' < i + 1 && i' < |passes| &&
                  !Permits(cs, passes[i'], passes[j']) && !Permits(cs, passes[j'], passes[i']);
    assert i' == i;
    assert EdgeInRows(passes, cs, passes[j'], passes[i], i);
    assert passes[j'] in g[passes[i]];
  }

  /** After row `i` of a duplicate-free list, the flag is set exactly when
      some pair with both positions in rows `0 .. i` is refused both ways. */
  lemma RowStepFlag<P(!new)>(passes: seq<P>, cs: seq<Constraint<P>>, i: nat, g: Graph<P>, circular: bool)
    requires i < |passes| && NoDup(passes) && GraphAfterRows(passes, cs, g, i)
    requires circular <==> MutualInRows(passes, cs, i)
    ensures BuildRow(passes, cs, i, 0, g, circular).1 <==> MutualInRows(passes, cs, i + 1)
  {
    var c1 := BuildRow(passes, cs, i, 0, g, circular).1;
    if c1 && !circular {
      RowFlagSound(passes, cs, i, g, circular);
    }
    if MutualInRows(passes, cs, i + 1) && !MutualInRows(passes, cs, i) {
      RowFlagComplete(passes, cs, i, g, circular);
    }
    if MutualInRows(passes, cs, i) {
      var i', j' :| 0 <= j' < i' < i && i' < |passes| &&
                    !Permits(cs, passes[i'], passes[j']) && !Permits(cs, passes[j'], passes[i']);
      assert MutualInRows(passes, cs, i + 1);
    }
  }

  /** The outer loop, from row `i` on. */
  function BuildRows<P(==, !new)>(passes: seq<P>, cs: seq<Constraint<P>>, i: nat, g: Graph<P>, circular: bool): (r: (Graph<P>, bool))
    requires i <= |passes| && GraphAfterRows(passes, cs, g, i)
    requires NoDup(passes) ==> (circular <==> MutualInRows(passes, cs, i))
    ensures GraphAfterRows(passes, cs, r.0, |passes|)
    ensures NoDup(passes) ==> (r.1 <==> MutualInRows(passes, cs, |passes|))
    decreases |passes| - i
  {
    if i == |passes| then (g, circular)
    else
      var row := BuildRow(passes, cs, i, 0, g, circular);
      RowStepGraph(passes, cs, i, g, circular);
      assert NoDup(passes) ==> (row.1 <==> MutualInRows(passes, cs, i + 1)) by {
        if NoDup(passes) {
          RowStepFlag(passes, cs, i, g, circular);
        }
      }
      BuildRows(passes, cs, i + 1, row.0, row.1)
  }

  /** The whole construction: the graph has one key per pass, `x` is in
      `graph[y]` exactly when two distinct positions hold `x` and `y` and some
      constraint refuses `x` before `y`, and (for distinct passes) the flag is
      raised exactly when some pair is refused in both orders. */
  function BuildGraph<P(==, !new)>(passes: seq<P>, cs: seq<Constraint<P>>): (r: (Graph<P>, bool))
    ensures forall p :: p in r.0 <==> p in passes
    ensures forall x, y | y in r.0 :: x in r.0[y] <==> EdgeInRows(passes, cs, x, y, |passes|)
    ensures NoDup(passes) ==> (r.1 <==> HasMutualRefusal(passes, cs))
  {
    var g := InitGraph(passes);
    assert GraphAfterRows(passes, cs, g, 0);
    var r := BuildRows(passes, cs, 0, g, false);
    assert HasMutualRefusal(passes, cs) <==> MutualInRows(passes, cs, |passes|) by {
      if HasMutualRefusal(passes, cs) {
        var i, j :| 0 <= i < |passes| && 0 <= j < |passes| && i != j &&
                    !Permits(cs, passes[i], passes[j]) && !Permits(cs, passes[j], passes[i]);
        if j < i {
          assert MutualInRows(passes, cs, |passes|);
        } else {
          assert 0 <= i < j < |passes|;
          assert MutualInRows(passes, cs, |passes|);
        }
      }
    }
    r
  }

  /** For distinct passes an edge means: `x` and `y` are different passes of
      the list and some constraint refuses `x` before `y`. */
  lemma EdgeDistinct<P>(passes: seq<P>, cs: seq<Constraint<P>>, x: P, y: P)
    requires NoDup(passes)
    ensures EdgeInRows(passes, cs, x, y, |passes|) <==> x in passes && y in passes && x != y && !Permits(cs, x, y)
  {
    if x in passes && y in passes && x != y && !Permits(cs, x, y) {
      var i :| 0 <= i < |passes| && passes[i] == x;
      var j :| 0 <= j < |passes| && passes[j] == y;
      assert EdgeInRows(passes, cs, x, y, |passes|);
    }
  }
}

=== FILE: manager.dfy ===
/** The configuration side of `PassManager`: the pass list, the constraint
    list, the `_validated` flag, the step budget, the two check switches and
    the installed check function, and the operations that change them. */
module Manager {
  import opened Wrappers
  import opened Seqs
  import opened Schedule
  import opened TopologicalSort
  import opened CycleDetection
  import opened Errors

  /** A `PassManager` instance. `check` stands for the installed check
      function: `false` where it would raise. */
  datatype Manager<!P, !M> = Manager(
    passes: seq<P>,
    constraints: seq<Constraint<P>>,
    validated: bool,
    steps: int,
    runChecksAfterEachPass: bool,
    suppressCheckFailures: bool,
    check: M -> bool)

  /** What `_validated` promises: a manager marked validated holds a pass
      list that satisfies every constraint. */
  ghost predicate Consistent<P, M>(m: Manager<P, M>) {
    m.validated ==> RespectsAll(m.constraints, m.passes)
  }

  /** `PassManager(passes, constraints, steps, ...)`: a `steps` of `None` or
      `0` falls back to one round; the default check accepts every module;
      nothing is validated yet. */
  function NewManager<P, M>(passes: seq<P>, constraints: seq<Constraint<P>>, steps: Option<int>,
                            runChecksAfterEachPass: bool, suppressCheckFailures: bool): (m: Manager<P, M>)
    ensures m.passes == passes && m.constraints == constraints
    ensures !m.validated && Consistent(m)
    ensures m.steps != 0
    ensures steps.Some? && steps.value != 0 ==> m.steps == steps.value
    ensures steps.None? || steps.value == 0 ==> m.steps == 1
    ensures m.runChecksAfterEachPass == runChecksAfterEachPass
    ensures m.suppressCheckFailures == suppressCheckFailures
  {
    Manager(passes, constraints, false,
            if steps.Some? && steps.value != 0 then steps.value else 1,
            runChecksAfterEachPass, suppressCheckFailures, _ => true)
  }

  /** `add_pass`: the pass goes to the end of the list and the manager is no
      longer validated; nothing else changes. */
  function AddPass<P, M>(m: Manager<P, M>, p: P): (r: Manager<P, M>)
    ensures |r.passes| == |m.passes| + 1 && r.passes[..|m.passes|] == m.passes && r.passes[|m.passes|] == p
    ensures !r.validated && Consistent(r)
    ensures r == m.(passes := r.passes, validated := false)
  {
    m.(passes := m.passes + [p], validated := false)
  }

  /** `add_constraint`: the constraint goes to the end of the list and the
      manager is no longer validated; nothing else changes. */
  function AddConstraint<P, M>(m: Manager<P, M>, c: Constraint<P>): (r: Manager<P, M>)
    ensures |r.constraints| == |m.constraints| + 1 && r.constraints[..|m.constraints|] == m.constraints
    ensures r.constraints[|m.constraints|] == c
    ensures !r.validated && Consistent(r)
    ensures r == m.(constraints := r.constraints, validated := false)
  {
    m.(constraints := m.constraints + [c], validated := false)
  }

  /** `validate_constraints`: nothing to do once validated; otherwise every
      constraint is checked in list order against the current pass list, the
      first violation raises, and only a clean pass sets `_validated`. */
  function ValidateConstraints<P, M>(m: Manager<P, M>): (r: (Manager<P, M>, Outcome<Failure<P>>))
    ensures m.validated ==> r == (m, Pass)
    ensures !m.validated ==> (r.1.Pass? <==> RespectsAll(m.constraints, m.passes))
    ensures r.1.Pass? ==> r.0 == m.(validated := true)
    ensures r.1.Fail? ==> r.0 == m && r.1.error.ScheduleViolated?
    ensures r.1.Fail? ==> var v := r.1.error.violation;
              v.constraint < |m.constraints| && IsFirstViolation(m.constraints[v.constraint], m.passes, v.at) &&
              forall k | 0 <= k < v.constraint :: Respects(m.constraints[k], m.passes)
    ensures Consistent(m) ==> Consistent(r.0)
  {
    if m.validated then (m, Pass)
    else match ValidateAll(m.constraints, m.passes)
      case Pass => (m.(validated := true), Pass)
      case Fail(v) => (m, Fail(ScheduleViolated(v)))
  }

  /** `solve_constraints`: the pass list is replaced by the sorted one, and
      only then, when a circular dependency was reported and exactly one
      round is allowed, the call raises; the replacement stays in place
      either way. For distinct passes it raises exactly when one round is
      allowed and no ordering of them satisfies every constraint, and when
      some ordering does, the new list satisfies every constraint whatever
      the round budget. */
  function SolveConstraints<P(==, !new), M>(m: Manager<P, M>): (r: (Manager<P, M>, Outcome<Failure<P>>))
    ensures r.0 == m.(passes := r.0.passes)
    ensures NoDup(m.passes) ==> multiset(r.0.passes) == multiset(m.passes)
    ensures NoDup(m.passes) ==> (r.1.Fail? <==> m.steps == 1 && Unschedulable(m.passes, m.constraints))
    ensures NoDup(m.passes) && !Unschedulable(m.passes, m.constraints) ==> RespectsAll(m.constraints, r.0.passes)
    ensures r.1.Fail? ==> r.1.error == CircularDependency
    ensures m.steps == 1 && r.1.Pass? ==> RespectsAll(m.constraints, r.0.passes)
    ensures Consistent(m) && m.steps == 1 && r.1.Pass? ==> Consistent(r.0)
  {
    var sorted := TopologicalSortPasses(m.passes, m.constraints);
    assert NoDup(m.passes) ==> (sorted.1 <==> Unschedulable(m.passes, m.constraints)) by {
      if NoDup(m.passes) {
        FlagIffUnschedulable(m.passes, m.constraints);
      }
    }
    (m.(passes := sorted.0), if sorted.1 && m.steps == 1 then Fail(CircularDependency) else Pass)
  }

  /** The list `solve_constraints` leaves behind is the result of
      `topological_sort_passes`, whether or not the call then raises; it
      raises exactly when the sort flagged a cycle and one round is allowed. */
  lemma SolveConstraintsSorts<P(!new), M>(m: Manager<P, M>)
    ensures SolveConstraints(m).0.passes == TopologicalSortPasses(m.passes, m.constraints).0
    ensures SolveConstraints(m).1.Fail? <==> TopologicalSortPasses(m.passes, m.constraints).1 && m.steps == 1
  {
  }

  /** `add_checks`: a check function must take exactly one parameter
      (`arity` is the length of its signature), otherwise a `TypeError` is
      raised and the manager is unchanged. */
  function AddChecks<P, M>(m: Manager<P, M>, check: M -> bool, arity: int): (r: Result<Manager<P, M>, Failure<P>>)
    ensures r.Success? <==> arity == 1
    ensures r.Success? ==> r.value == m.(check := check)
    ensures r.Failure? ==> r.error == CheckArity(arity)
    ensures r.Success? && Consistent(m) ==> Consistent(r.value)
  {
    if arity != 1 then Failure(CheckArity(arity)) else Success(m.(check := check))
  }

  /** The default `check` of a new manager accepts every module. */
  lemma DefaultCheckAccepts<P, M>(passes: seq<P>, constraints: seq<Constraint<P>>, steps: Option<int>,
                                  runChecks: bool, suppress: bool, x: M)
    ensures NewManager<P, M>(passes, constraints, steps, runChecks, suppress).check(x)
  {
  }

  /** Validating twice is validating once: the second call does no further
      work and returns what the first returned. */
  lemma ValidateIdempotent<P, M>(m: Manager<P, M>)
    ensures ValidateConstraints(ValidateConstraints(m).0) == ValidateConstraints(m)
  {
  }

  /** Adding a pass invalidates: whatever state the manager was in,
      `validate_constraints` afterwards checks the extended list again. */
  lemma AddPassRevalidates<P, M>(m: Manager<P, M>, p: P)
    ensures ValidateConstraints(AddPass(m, p)).1.Pass? <==> RespectsAll(m.constraints, m.passes + [p])
  {
  }
}

=== FILE: schedule.dfy ===
/** Pass schedule constraints and the schedule validator
    (`_validate_pass_schedule_constraint`, `this_before_that_pass_constraint`
    and the loop of `PassManager.validate_constraints`). */
module Schedule {
  import opened Wrappers

  /** A constraint is a pure predicate over an ordered pair of passes:
      `c(a, b)` is true when running `a` somewhere before `b` is acceptable. */
  type Constraint<!P> = (P, P) -> bool

  /** Every constraint of `cs` accepts `a` before `b`. */
  predicate Permits<P>(cs: seq<Constraint<P>>, a: P, b: P) {
    forall k | 0 <= k < |cs| :: cs[k](a, b)
  }

  /** The schedule `s` satisfies `c` for every pair of positions i < j. */
  predicate Respects<P>(c: Constraint<P>, s: seq<P>) {
    forall i, j | 0 <= i < j < |s| :: c(s[i], s[j])
  }

  /** The schedule `s` satisfies every constraint of `cs`. */
  predicate RespectsAll<P>(cs: seq<Constraint<P>>, s: seq<P>) {
    forall k | 0 <= k < |cs| :: Respects(cs[k], s)
  }

  /** The pair of positions (first, second) at which a constraint was found violated. */
  datatype Violation = Violation(first: nat, second: nat)

  /** Pair (i', j') is scanned before pair (i, j) by two nested loops over
      positions, outer loop first. */
  predicate RowMajorBefore(i': int, j': int, i: int, j: int) {
    i' < i || (i' == i && j' < j)
  }

  /** `v` is the first pair, in scanning order, at which `c` fails on `s`. */
  predicate IsFirstViolation<P>(c: Constraint<P>, s: seq<P>, v: Violation) {
    && v.first < v.second < |s|
    && !c(s[v.first], s[v.second])
    && forall i, j | 0 <= i < j < |s| && RowMajorBefore(i, j, v.first, v.second) :: c(s[i], s[j])
  }

  /** Inner loop: the first position j' >= j whose pass `c` refuses after `s[i]`. */
  function ScanRow<P>(c: Constraint<P>, s: seq<P>, i: nat, j: nat): (r: Option<nat>)
    requires i < j <= |s|
    ensures r.None? <==> forall j' | j <= j' < |s| :: c(s[i], s[j'])
    ensures r.Some? ==> j <= r.value < |s| && !c(s[i], s[r.value])
    ensures r.Some? ==> forall j' | j <= j' < r.value :: c(s[i], s[j'])
    decreases |s| - j
  {
    if j == |s| then None
    else if c(s[i], s[j]) then ScanRow(c, s, i, j + 1)
    else Some(j)
  }

  /** Outer loop, from row `i` on. */
  function ScanRows<P>(c: Constraint<P>, s: seq<P>, i: nat): (r: Outcome<Violation>)
    requires i <= |s|
    ensures r.Pass? <==> forall i', j' | i <= i' < j' < |s| :: c(s[i'], s[j'])
    ensures r.Fail? ==> i <= r.error.first && r.error.first < r.error.second < |s|
    ensures r.Fail? ==> !c(s[r.error.first], s[r.error.second])
    ensures r.Fail? ==> forall i', j' | i <= i' < j' < |s| && RowMajorBefore(i', j', r.error.first, r.error.second) :: c(s[i'], s[j'])
    decreases |s| - i
  {
    if i == |s| then Pass
    else
      match ScanRow(c, s, i, i + 1)
      case Some(j) => Fail(Violation(i, j))
      case None => ScanRows(c, s, i + 1)
  }

  /** `_validate_pass_schedule_constraint`: returns normally exactly when the
      schedule satisfies the constraint, and otherwise raises at the first
      failing pair in scanning order. */
  function ValidatePassScheduleConstraint<P>(c: Constraint<P>, s: seq<P>): (r: Outcome<Violation>)
    ensures r.Pass? <==> Respects(c, s)
    ensures r.Fail? ==> IsFirstViolation(c, s, r.error)
  {
    ScanRows(c, s, 0)
  }

  /** The error raised by the constraint loop of `validate_constraints`:
      which constraint, and where. */
  datatype ScheduleViolation = ScheduleViolation(constraint: nat, at: Violation)

  /** The constraint loop of `validate_constraints`, from constraint `k`:
      each constraint is validated in list order and the first violation
      stops the loop. */
  function ValidateFrom<P>(cs: seq<Constraint<P>>, s: seq<P>, k: nat): (r: Outcome<ScheduleViolation>)
    requires k <= |cs|
    ensures r.Pass? <==> forall k' | k <= k' < |cs| :: Respects(cs[k'], s)
    ensures r.Fail? ==> k <= r.error.constraint < |cs|
    ensures r.Fail? ==> IsFirstViolation(cs[r.error.constraint], s, r.error.at)
    ensures r.Fail? ==> forall k' | k <= k' < r.error.constraint :: Respects(cs[k'], s)
    decreases |cs| - k
  {
    if k == |cs| then Pass
    else
      match ValidatePassScheduleConstraint(cs[k], s)
      case Fail(v) => Fail(ScheduleViolation(k, v))
      case Pass => ValidateFrom(cs, s, k + 1)
  }

  /** Every constraint in turn; the first violated constraint is reported. */
  function ValidateAll<P>(cs: seq<Constraint<P>>, s: seq<P>): (r: Outcome<ScheduleViolation>)
    ensures r.Pass? <==> RespectsAll(cs, s)
    ensures r.Fail? ==> r.error.constraint < |cs| && IsFirstViolation(cs[r.error.constraint], s, r.error.at)
    ensures r.Fail? ==> forall k' | 0 <= k' < r.error.constraint :: Respects(cs[k'], s)
  {
    ValidateFrom(cs, s, 0)
  }

  /** `this_before_that_pass_constraint(this, that)`, with `this` named
      `earlier` and `that` named `later`: only the pair (later, earlier) is refused. */
  function ThisBeforeThat<P(==)>(earlier: P, later: P): Constraint<P>
  {
    (a: P, b: P) => !(a == later && b == earlier)
  }

  /** A schedule satisfies `ThisBeforeThat(x, y)` exactly when no occurrence of
      `y` precedes an occurrence of `x`. */
  lemma ThisBeforeThatRespected<P>(x: P, y: P, s: seq<P>)
    ensures Respects(ThisBeforeThat(x, y), s) <==>
            !exists i, j | 0 <= i < j < |s| :: s[i] == y && s[j] == x
  {
  }

  /** The docstring's example: `[that, this]` is rejected at positions (0, 1),
      `[this, that]` is accepted. */
  lemma ThisBeforeThatExample<P>(x: P, y: P)
    requires x != y
    ensures ValidatePassScheduleConstraint(ThisBeforeThat(x, y), [y, x]) == Fail(Violation(0, 1))
    ensures ValidatePassScheduleConstraint(ThisBeforeThat(x, y), [x, y]) == Pass
  {
  }

  /** The inner loop as the source writes it, enumerating the slice of the
      passes after the outer position: the index it yields counts positions
      in that slice, not in the pass list. From slice index `j` on, it finds
      the first pass that `c` refuses after `a`. */
  function ScanSlice<P>(c: Constraint<P>, a: P, tail: seq<P>, j: nat): (r: Option<nat>)
    requires j <= |tail|
    ensures r.None? <==> forall j' | j <= j' < |tail| :: c(a, tail[j'])
    ensures r.Some? ==> j <= r.value < |tail| && !c(a, tail[r.value])
    ensures r.Some? ==> forall j' | j <= j' < r.value :: c(a, tail[j'])
    decreases |tail| - j
  {
    if j == |tail| then None
    else if c(a, tail[j]) then ScanSlice(c, a, tail, j + 1)
    else Some(j)
  }

  /** Scanning the slice after position `i` from slice index `j` finds the
      same pass as scanning the list from position `i + 1 + j`, at an index
      smaller by `i + 1`. */
  lemma {:induction false} ScanSliceOffset<P>(c: Constraint<P>, s: seq<P>, i: nat, j: nat)
    requires i < |s| && i + 1 + j <= |s|
    ensures ScanSlice(c, s[i], s[i + 1..], j).None? <==> ScanRow(c, s, i, i + 1 + j).None?
    ensures ScanSlice(c, s[i], s[i + 1..], j).Some? ==>
              ScanRow(c, s, i, i + 1 + j).value == i + 1 + ScanSlice(c, s[i], s[i + 1..], j).value
    decreases |s| - j
  {
    if i + 1 + j < |s| {
      assert s[i + 1..][j] == s[i + 1 + j];
      ScanSliceOffset(c, s, i, j + 1);
    }
  }

  /** One row of both scans: the row's slice scan decides, for both, whether
      this row fails (at the slice index and at the position that index
      stands for) or both move on to the next row. */
  lemma RowAsWritten<P>(c: Constraint<P>, s: seq<P>, i: nat)
    requires i < |s|
    ensures var found := ScanSlice(c, s[i], s[i + 1..], 0);
            found.Some? ==> ScanRowsAsWritten(c, s, i) == Fail(Violation(i, found.value)) &&
                            ScanRows(c, s, i) == Fail(Violation(i, i + 1 + found.value))
    ensures var found := ScanSlice(c, s[i], s[i + 1..], 0);
            found.None? ==> ScanRowsAsWritten(c, s, i) == ScanRowsAsWritten(c, s, i + 1) &&
                            ScanRows(c, s, i) == ScanRows(c, s, i + 1)
  {
    ScanSliceOffset(c, s, i, 0);
  }

  /** The loops of `_validate_pass_schedule_constraint` from row `i`, as
      written: a violation is reported as the pair of indices the error
      message prints, the outer position and the slice index. */
  function ScanRowsAsWritten<P>(c: Constraint<P>, s: seq<P>, i: nat): (r: Outcome<Violation>)
    requires i <= |s|
    ensures r.Fail? ==> i <= r.error.first < |s| && r.error.second < |s| - r.error.first - 1
    ensures r.Fail? ==> !c(s[r.error.first], s[r.error.first + 1..][r.error.second])
    decreases |s| - i
  {
    if i == |s| then Pass
    else
      match ScanSlice(c, s[i], s[i + 1..], 0)
      case Some(j) => Fail(Violation(i, j))
      case None => ScanRowsAsWritten(c, s, i + 1)
  }

  /** The written loops fail exactly where the position-based scan fails, on
      the same row; but the second index they report is the slice index,
      which is the refused pass's position less the row and one. */
  lemma {:induction false} AsWrittenReportsSliceIndex<P>(c: Constraint<P>, s: seq<P>, i: nat)
    requires i <= |s|
    ensures ScanRowsAsWritten(c, s, i).Pass? <==> ScanRows(c, s, i).Pass?
    ensures var w, v := ScanRowsAsWritten(c, s, i), ScanRows(c, s, i);
            w.Fail? ==> w.error.first == v.error.first && v.error.first + 1 + w.error.second == v.error.second
    decreases |s| - i
  {
    if i < |s| {
      RowAsWritten(c, s, i);
      if ScanSlice(c, s[i], s[i + 1..], 0).None? {
        AsWrittenReportsSliceIndex(c, s, i + 1);
      }
    }
  }

  /** The printed positions never name the refused pass: the second index
      always falls short of its position. */
  lemma ReportedPositionsMisplaced<P>(c: Constraint<P>, s: seq<P>)
    ensures var w, v := ScanRowsAsWritten(c, s, 0), ValidatePassScheduleConstraint(c, s);
            w.Fail? <==> v.Fail?
    ensures var w, v := ScanRowsAsWritten(c, s, 0), ValidatePassScheduleConstraint(c, s);
            w.Fail? ==> w.error.first == v.error.first && w.error.second < v.error.second &&
                        s[w.error.first + 1..][w.error.second] == s[v.error.second]
  {
    AsWrittenReportsSliceIndex(c, s, 0);
  }

  /** In the docstring's example the message prints index 0 twice, while
      the refused pass sits at position 1. */
  lemma ReportedPositionsExample<P>(x: P, y: P)
    requires x != y
    ensures ScanRowsAsWritten(ThisBeforeThat(x, y), [y, x], 0) == Fail(Violation(0, 0))
    ensures ValidatePassScheduleConstraint(ThisBeforeThat(x, y), [y, x]) == Fail(Violation(0, 1)) && [y, x][1] == x
  {
    ThisBeforeThatExample(x, y);
  }
}

=== FILE: seqs.dfy ===
/** Sequence helpers: duplicate-freedom, reversal, repetition and positions. */
module Seqs {

  /** No element occurs twice. The pass manager keys its dependency graph by
      pass identity, so this is what "a list of distinct passes" means. */
  predicate NoDup<T(==)>(s: seq<T>) {
    forall i, j | 0 <= i < j < |s| :: s[i] != s[j]
  }

  /** Python's `s[::-1]` and `list.reverse()`. */
  function Reverse<T>(s: seq<T>): (r: seq<T>)
    ensures |r| == |s|
    ensures forall k | 0 <= k < |s| :: r[k] == s[|s| - 1 - k]
  {
    if |s| == 0 then [] else Reverse(s[1..]) + [s[0]]
  }

  lemma ReverseElems<T>(s: seq<T>)
    ensures forall x :: x in Reverse(s) <==> x in s
  {
    var r := Reverse(s);
    forall x | x in s ensures x in r {
      var k :| 0 <= k < |s| && s[k] == x;
      assert r[|s| - 1 - k] == x;
    }
  }

  lemma ReverseNoDup<T>(s: seq<T>)
    requires NoDup(s)
    ensures NoDup(Reverse(s))
  {
  }

  /** `n` copies of `s` back to back: the passes run by `n` full rounds. */
  function Repeat<T>(s: seq<T>, n: nat): (r: seq<T>)
  {
    if n == 0 then [] else Repeat(s, n - 1) + s
  }

  /** A run of rounds is also one round followed by the rest. */
  lemma {:induction false} RepeatFront<T>(s: seq<T>, n: nat)
    ensures Repeat(s, n + 1) == s + Repeat(s, n)
  {
    if n > 0 {
      RepeatFront(s, n - 1);
    }
  }

  /** A position at which `x` occurs in `s`. */
  function IndexOf<T(==)>(s: seq<T>, x: T): (k: nat)
    requires x in s
    ensures k < |s| && s[k] == x
  {
    if s[0] == x then 0 else 1 + IndexOf(s[1..], x)
  }

  /** In a sequence without duplicates every present element occurs exactly once. */
  lemma {:induction false} NoDupMultiplicity<T>(s: seq<T>, x: T)
    requires NoDup(s)
    ensures multiset(s)[x] == if x in s then 1 else 0
  {
    if |s| > 0 {
      assert s == [s[0]] + s[1..];
      assert NoDup(s[1..]) by {
        forall i, j | 0 <= i < j < |s[1..]| ensures s[1..][i] != s[1..][j] {
          assert s[1..][i] == s[i + 1] && s[1..][j] == s[j + 1];
        }
      }
      NoDupMultiplicity(s[1..], x);
      assert s[0] !in s[1..] by {
        forall k | 0 <= k < |s[1..]| ensures s[1..][k] != s[0] {
          assert s[1..][k] == s[k + 1];
        }
      }
    }
  }

  /** Two duplicate-free sequences with the same elements are permutations of each other. */
  lemma SameElemsPermutation<T>(s: seq<T>, t: seq<T>)
    requires NoDup(s) && NoDup(t)
    requires forall x :: x in s <==> x in t
    ensures multiset(s) == multiset(t)
  {
    forall x ensures multiset(s)[x] == multiset(t)[x] {
      NoDupMultiplicity(s, x);
      NoDupMultiplicity(t, x);
    }
  }
}

=== FILE: toposort.dfy ===
/** `topological_sort_passes`: order the passes so that every constraint
    holds, and report whether a circular dependency was seen. */
module TopologicalSort {
  import opened Seqs
  import opened Schedule
  import opened DependencyGraph
  import opened Dfs

  /** Reversing a postorder without back edges gives a schedule that every
      constraint accepts: a refused pair would be an edge pointing backwards. */
  lemma ReversedPostorderRespects<P(!new)>(passes: seq<P>, cs: seq<Constraint<P>>, g: Graph<P>, res: seq<P>)
    requires forall x, y | y in g :: x in g[y] <==> EdgeInRows(passes, cs, x, y, |passes|)
    requires forall p :: p in g <==> p in passes
    requires NoDup(res) && NoBackEdge(g, res)
    requires forall k | 0 <= k < |res| :: res[k] in passes
    ensures RespectsAll(cs, Reverse(res))
  {
  }

  /** What the reversed postorder of a search over the dependency graph
      holds: every constraint when no cycle was seen, and a permutation of
      distinct passes. */
  lemma SortedFacts<P(!new)>(passes: seq<P>, cs: seq<Constraint<P>>, g: Graph<P>, res: seq<P>, circular: bool)
    requires forall x, y | y in g :: x in g[y] <==> EdgeInRows(passes, cs, x, y, |passes|)
    requires forall p :: p in g <==> p in passes
    requires NoDup(res) && (!circular ==> NoBackEdge(g, res))
    requires forall k | 0 <= k < |res| :: res[k] in passes
    requires forall p :: p in Reverse(res) <==> p in passes
    requires NoDup(Reverse(res))
    ensures !circular ==> RespectsAll(cs, Reverse(res))
    ensures NoDup(passes) ==> multiset(Reverse(res)) == multiset(passes)
  {
    if !circular {
      ReversedPostorderRespects(passes, cs, g, res);
    }
    if NoDup(passes) {
      SameElemsPermutation(Reverse(res), passes);
    }
  }

  /** `topological_sort_passes(passes, constraints)`.
      With no constraints the input comes back unchanged and unflagged.
      Otherwise the result holds each pass of the input exactly once (so it is
      a permutation of a list of distinct passes); when the flag is clear the
      result satisfies every constraint for every pair i < j; and a pair of
      passes refused in both orders always raises the flag. */
  function TopologicalSortPasses<P(==, !new)>(passes: seq<P>, cs: seq<Constraint<P>>): (r: (seq<P>, bool))
    ensures |cs| == 0 ==> r == (passes, false)
    ensures |cs| > 0 ==> NoDup(r.0)
    ensures |cs| > 0 ==> forall p :: p in r.0 <==> p in passes
    ensures NoDup(passes) ==> multiset(r.0) == multiset(passes)
    ensures !r.1 ==> RespectsAll(cs, r.0)
    ensures NoDup(passes) && HasMutualRefusal(passes, cs) ==> r.1
  {
    if |cs| == 0 then (passes, false)
    else
      var built := BuildGraph(passes, cs);
      var g := built.0;
      assert Closed(g) by {
        forall p, q | p in g && q in g[p] ensures q in g {
          assert EdgeInRows(passes, cs, q, p, |passes|);
        }
      }
      ReverseElems(passes);
      var st := Traverse(g, Reverse(passes), built.1);
      var sorted := Reverse(st.res);
      ReverseElems(st.res);
      ReverseNoDup(st.res);
      SortedFacts(passes, cs, g, st.res, st.circular);
      (sorted, st.circular)
  }

  /** An unflagged result passes `validate_constraints`' loop: validating
      it would not raise. */
  lemma SortedPassesValidate<P(!new)>(passes: seq<P>, cs: seq<Constraint<P>>)
    ensures var r := TopologicalSortPasses(passes, cs); !r.1 ==> ValidateAll(cs, r.0).Pass?
  {
  }
}

=== FILE: wrappers.dfy ===
/** Failure-carrying datatypes used in place of Python's exceptions and
    optional values. */
module Wrappers {

  /** A value that may be absent (Python's `None`, or a missing keyword argument). */
  datatype Option<+T> = None | Some(value: T)

  /** Either a result value or the error that was raised instead. */
  datatype Result<+R, +E> = Success(value: R) | Failure(error: E)

  /** A check that either passes or reports the error it raised; it carries no value. */
  datatype Outcome<+E> = Pass | Fail(error: E)
}
